=== FILE: README.md ===
# IP block-list service: a Dafny model of its core

The system keeps two lists of IP addresses in SQLite: a blacklist and a whitelist. A Flask API
imports addresses and networks into them and exports the effective blacklist, which is the
blacklisted addresses that are not whitelisted. A host-side script keeps an ipfw table in step
with that export.

This project models the core of the system as pure Dafny functions, a few methods, and lemmas
about them:

- `utils/validators.py` (module `Ipv4`):
  - `validate_ip` and `parse_ip_range`, for IPv4 dotted quads and prefix notation (section 3.1
    of RFC 4632);
  - the parts of Python's `ipaddress` module they rely on: the canonical dotted-quad syntax,
    host-bit masking with `strict=False`, and the host enumeration of `hosts()`;
- `db/database.py` (module `ListStore`):
  - the two keyed tables;
  - the single inserts with their messages;
  - the three reads, with whitelist precedence in `get_blacklist`;
  - the insert-or-ignore `bulk_add`;
- `app/routes/import_routes.py` (module `Import`): the token normalisation loop of
  `import_bulk`, and the validation and list-type dispatch of `import_single`;
- `app/routes/export.py` (module `Export`): the `{count, ips}` payload, the iptables rule
  strings, and the CSV rendering with its fixed column order;
- `scripts/host.py` (module `Reconciler`):
  - the API server extraction from the URL;
  - the parsing of the ipfw table listing;
  - the diff of `sync_with_api`;
  - the delete-then-add loops of `update_ipfw_table`.

Two modules support the others: `Text` holds Python's `str.split`, `str.join` and decimal
numerals, and `Wrappers` holds `Option`.

The outside world is modelled as parameters:

- the clock is a `Timestamp` argument, or a map from entry index to timestamp;
- the HTTP reply is a `Reply` value;
- the `ipfw table ... list` run is a `Listing` value;
- every other ipfw or HTTP call is a map from `Command` to `Outcome`:
  - `Ok` is exit status 0;
  - `Failed` is a non-zero exit status, which is only logged;
  - `Raised` is an exception, which ends `update_ipfw_table`;
- `setup_base_rules` is a boolean: whether it returned or raised.

The table is a `set<string>`. A cycle returns the commands it issued, in order, together with
the table they leave behind.

Where the code differs from what its names and messages suggest, the model follows the code:

- `bulk_add` reports `len(entries)`, the number of entries it was given, not the number of rows
  inserted.
- `import_bulk` reads the clock once per entry, so entries of one batch may carry different
  `added_at` values.
- A `/32` network expands to its single address, because `hosts()` returns it.

## Model

| member | source | states |
|---|---|---|
| Text.Split | scripts/host.py:187 | `str.split(sep)` yields at least one piece, and no piece contains the separator |
| Text.SplitJoin | scripts/host.py:187 | splitting the join of pieces that hold no separator gives the pieces back |
| Text.JoinSplit | scripts/host.py:187 | joining the pieces of a split gives the original string back |
| Text.NatToDecimal | db/database.py:149-150 | `str(n)` is a canonical numeral that `int` reads back as `n`; below 10, 100 and 1000 it has at most 1, 2 and 3 digits |
| Text.CanonicalRoundTrip | db/database.py:149-150 | every canonical numeral is the one `str` writes for its value |
| Ipv4.ParseOctet | utils/validators.py:10 | an accepted dotted-quad component is exactly the canonical decimal text of its value |
| Ipv4.OctetRoundTrip | utils/validators.py:10 | the decimal text of every value below 256 is accepted as that value |
| Ipv4.OctetsOf | utils/validators.py:10 | an address has four octets, and recombining them gives the address back |
| Ipv4.FormatAddr | utils/validators.py:51 | `str()` of an address is a dotted quad of seven to fifteen characters |
| Ipv4.ParseAddr | utils/validators.py:10 | `ip_address` accepts a string only when it is exactly the text `str()` writes for the parsed value |
| Ipv4.ParseFormat | utils/validators.py:10 | formatting an address and parsing the text gives the same address |
| Ipv4.FormatParse | utils/validators.py:10 | only canonical text parses: a string that parses is the text of its address, with no leading zeros or other variant |
| Ipv4.AddrTextIff | utils/validators.py:10 | a string parses as an address if and only if it is the text of some address |
| Ipv4.FormatOctets | utils/validators.py:51 | the text of an address is its four octets in decimal, joined by dots |
| Ipv4.FormatAddrNoSlash | app/routes/import_routes.py:64 | no address text contains '/', so the '/' test separates networks from addresses |
| Ipv4.Mask | utils/validators.py:15 | with `strict=False`, masking yields the block-aligned address at or below the input, and its block fits below 2^32 |
| Ipv4.MaskIffInNetwork | utils/validators.py:15 | an address masks to a network's address if and only if it lies inside that network |
| Ipv4.ParsePrefix | utils/validators.py:15 | an accepted prefix is all ASCII digits, leading zeros allowed, and its value is the prefix length |
| Ipv4.ParseNetwork | utils/validators.py:15 | every parsed network is aligned to its block |
| Ipv4.ParseNetworkText | utils/validators.py:15 | `<address>/<digits>` parses to the masked network exactly when the digits are at most 32 |
| Ipv4.ParseNetworkNoSlash | utils/validators.py:15 | without '/', a string parses as a network exactly when it parses as an address, and then as a /32 |
| Ipv4.Hosts | utils/validators.py:51 | `hosts()` yields `HostCount(p)` addresses in strictly ascending order |
| Ipv4.HostsExactly | utils/validators.py:51 | an address is a host if and only if it is in the network and, for prefixes up to 30, is neither the network nor the broadcast address |
| Ipv4.ValidateIp | utils/validators.py:6-18 | an accepted input is returned unchanged, not canonicalised |
| Ipv4.ValidateIpIff | utils/validators.py:6-18 | `validate_ip` accepts exactly the dotted-quad texts and those texts followed by '/' and a prefix of at most 32; otherwise it gives `None` |
| Ipv4.NetworkIsPrefixText | utils/validators.py:13-16 | a string that parses only as a network is an address text, '/', and a prefix of at most 32 |
| Ipv4.ParseIpRange | utils/validators.py:48-51 | `parse_ip_range` succeeds exactly when `ip_network(s, strict=False)` does |
| Ipv4.AddrTexts | utils/validators.py:51 | element i of the result is `str` of host i |
| Ipv4.RangeHostsInside | utils/validators.py:48-51 | each host text parses back to its host, and that host masks to the network address |
| Ipv4.RangeOfPrefixText | utils/validators.py:50-51 | `a/t` expands to the texts of the hosts of the masked network |
| Ipv4.HostBitsIgnored | utils/validators.py:50 | two addresses in the same block expand identically under the same prefix, e.g. 10.0.0.1/30 and 10.0.0.0/30 |
| Ipv4.SlashThirty | utils/validators.py:51 | any address written with /30 expands to the two addresses between network and broadcast |
| Ipv4.SlashThirtyOne | utils/validators.py:51 | a /31 expands to both of its addresses |
| Ipv4.SlashThirtyTwo | utils/validators.py:51 | a /32 expands to its one address |
| ListStore.Rows | db/database.py:27-45 | no table holds two rows with the same `ip`, the primary key |
| ListStore.Insert | db/database.py:53-66 | the row is added if and only if the ip is new; a new ip gets exactly one row stamped with the store's clock; an existing ip leaves the store unchanged; the other table is untouched |
| ListStore.InsertMessage | db/database.py:60-64 | the message begins with "Added " exactly when the row went in |
| ListStore.AddToBlacklist | db/database.py:48-66 | a new ip gets "Added X to blacklist from source S" and exactly one appended row with the given fields and the clock reading; a stored ip gets "IP X already exists in blacklist" with the store unchanged; the whitelist is untouched |
| ListStore.AddToWhitelist | db/database.py:68-86 | the same two messages and the same appended row for the whitelist; the blacklist is untouched |
| ListStore.InsertTwice | db/database.py:63-66 | a second insert of an ip reports "already exists" and keeps the first row's source, reason, comment and timestamp |
| ListStore.Filter | db/database.py:97-99 | the kept rows are exactly the rows the predicate accepts |
| ListStore.FilterAppend | db/database.py:97-101 | filtering keeps the table's order: filtering `a + b` is filtering `a`, then filtering `b` |
| ListStore.FilterUnique | db/database.py:97-101 | a filtered read of a keyed table repeats no ip |
| ListStore.GetList | db/database.py:88-102 | the rows of the named table, filtered by source only when the source is truthy (`None` and `""` mean every source), with no whitelist precedence; no ip appears twice |
| ListStore.GetWhitelist | db/database.py:123-137 | the whitelist rows, filtered only by a truthy source; no ip appears twice |
| ListStore.GetBlacklist | db/database.py:104-121 | exactly the blacklist rows whose ip is not whitelisted, filtered by a truthy source; no ip appears twice |
| ListStore.EffectiveIps | db/database.py:110-113 | the ips read back are the blacklisted ips minus the whitelisted ips |
| ListStore.WhitelistSuppresses | db/database.py:68-86 | whitelisting keeps every blacklist row but hides the ip from every read of the effective blacklist |
| ListStore.InsertOrIgnore | db/database.py:144-147 | insert-or-ignore keeps the stored rows as a prefix, keeps ips unique, and ends with the union of the stored and batch ips |
| ListStore.FirstNew | db/database.py:144-147 | the reference definition takes only batch entries whose ip is not stored |
| ListStore.InsertOrIgnoreIsFirstNew | db/database.py:144-147 | insert-or-ignore appends exactly the first occurrence of each new ip, in batch order |
| ListStore.TableKind | db/database.py:144-145 | a list type names a table exactly when its ASCII lower case is "blacklist" or "whitelist" |
| ListStore.LowerAscii | db/database.py:144-145 | the text has the same length, every capital letter becomes the matching small letter, every other character is kept, and no capital remains |
| ListStore.BulkAdd | db/database.py:139-150 | an unknown table fails with nothing written; otherwise the named table gains exactly the first-new rows, the other table is untouched, and the message counts every entry given |
| ListStore.BulkAddIdempotent | db/database.py:144-147 | repeating a bulk insert changes nothing |
| ListStore.AllStoredNothingNew | db/database.py:144-147 | a batch whose ips are all stored inserts nothing |
| ListStore.BulkDuplicate | db/database.py:144-150 | a batch that repeats one new ip inserts one row, the first, while the message counts two |
| Import.NetworkToken | app/routes/import_routes.py:64-65 | a valid token containing '/' is a network and never an address |
| Import.AddressToken | app/routes/import_routes.py:76-85 | a valid token without '/' is an address |
| Import.Expand | app/routes/import_routes.py:62-85 | a token contributes nothing if and only if `validate_ip` rejects it, and everything it contributes is a canonical address |
| Import.ExpandShape | app/routes/import_routes.py:64-85 | an address token contributes itself verbatim; a network token contributes exactly the texts of its network's hosts, in `hosts()` order, `HostCount` of them, all inside the network |
| Import.HostsInside | app/routes/import_routes.py:65 | every expanded host text parses and lies inside the network |
| Import.Addresses | app/routes/import_routes.py:61-85 | the batch holds only canonical addresses |
| Import.AddressesOne | app/routes/import_routes.py:62-85 | one token's share of the batch is exactly its expansion: itself for an address, all its hosts for a network |
| Import.AddressesSlot | app/routes/import_routes.py:61-85 | each token's expansion sits in the batch between the batches of the tokens before and after it, in token order |
| Import.AddressesCount | app/routes/import_routes.py:61-85 | the batch size is the sum over the tokens of 0 for a rejected token, 1 for an address and `HostCount` for a network |
| Import.AddressesHold | app/routes/import_routes.py:61-85 | every address any token expands to is in the batch |
| Import.AddressesFrom | app/routes/import_routes.py:61-85 | every address in the batch is in the expansion of some token |
| Import.AddressesEmpty | app/routes/import_routes.py:61-88 | the batch is empty if and only if every token is invalid |
| Import.AddressesAppend | app/routes/import_routes.py:61-85 | the batch of a concatenation is the concatenation of the batches, so token order is kept |
| Import.InvalidTokenDropped | app/routes/import_routes.py:61-63 | an invalid token is dropped without affecting the rest of the batch |
| Import.Entries | app/routes/import_routes.py:66-85 | entry k carries address k, the batch's source, reason and comment, and the k-th clock reading |
| Import.ImportBulk | app/routes/import_routes.py:52-96 | missing `ips` gives the `KeyError` text; an all-invalid batch gives "No valid IPs provided" and writes nothing; it succeeds exactly when the batch is non-empty and the list type names a table; the message counts every entry |
| Import.BulkImportRows | app/routes/import_routes.py:57-90 | after a successful bulk import, the named table gains exactly the first entry of each batch address it did not hold, in batch order, built from the batch's source (default "bulk-import"), reason, comment and clock; these are canonical addresses; the other table is untouched |
| Import.ImportSingle | app/routes/import_routes.py:14-50 | rejected or missing input gives "Invalid IP address"; a network fails `IPEntry`; only an address is inserted; the list type goes to the blacklist only when it is exactly "blacklist" (the default), otherwise to the whitelist; a new address is appended as one row with the request's fields, source defaulting to "manual"; a stored address leaves the store unchanged; the message is "IP <ip> already exists in <table>" for a stored address and "Added <ip> to <table> from source <source>" otherwise |
| Import.ImportSingleAgain | app/routes/import_routes.py:14-50 | importing an address that was just imported, at any later time, changes nothing and replies that it already exists in the same table |
| Export.IpColumn | app/routes/export.py:88 | the `ip` column, in row order |
| Export.ExportIptables | app/routes/export.py:79-98 | `ips[i]` is the ip of row i of the unfiltered effective blacklist, `count == len(ips)`, no ip is whitelisted, and the format is "plain" |
| Export.ExportedAddresses | app/routes/export.py:85-88 | an address is exported if and only if it is blacklisted and not whitelisted |
| Export.Rules | app/routes/export.py:106-110 | one rule per row, in order |
| Export.Rule | app/routes/export.py:109 | whenever the address holds no space, the rule reads back as `iptables -A INPUT -s`, the row's address, `-j DROP`, and the comment `# ` followed by the row's source |
| Export.RuleWords | app/routes/export.py:109 | the rule text built from a space-free address and any source reads back as (address, "DROP", source) |
| Export.NextWord | app/routes/export.py:109 | a word read off the front of a text holds no space, and the text is that word, one space and the rest |
| Export.NextWordOf | app/routes/export.py:109 | a space-free word followed by a space and any text is read off as that word, leaving that text |
| Export.ExportIptablesRules | app/routes/export.py:100-120 | rule i is the rule of effective row i, `count == len(rules)`, and the format is "iptables" |
| Export.RulesReadBack | app/routes/export.py:105-110 | rule i reads back as (address, "DROP", source) of effective row i, and that address is never whitelisted |
| Export.UndoubleDouble | app/routes/export.py:26-28 | undoubling the doubled quotes of a cell gives the cell back |
| Export.Cell | app/routes/export.py:26-28 | a cell holding ',', '"', CR or LF is written quoted and reads back as the cell; any other cell is written verbatim |
| Export.CellTexts | app/routes/export.py:26-28 | each cell is written as `Cell` of it, in column order |
| Export.RecordsAppend | app/routes/export.py:27-28 | the records of two row lists are written one after the other |
| Export.PlainRecordRoundTrip | app/routes/export.py:26-28 | a record of cells that need no quoting reads back as those cells |
| Export.RecordRoundTrip | app/routes/export.py:26-28 | a row whose cells need no quoting reads back unchanged from its record, in the column order `ip, source, added_at, reason, comment` |
| Export.CsvDocument | app/routes/export.py:26-28 | the document opens with the header record, which reads back as `ip, source, added_at, reason, comment`, and the rows' records follow it |
| Export.HeaderRoundTrip | app/routes/export.py:26-27 | the header record reads back as the five column names |
| Export.Render | app/routes/export.py:23-39 | CSV if and only if the format is exactly "csv"; CSV is the header followed by the records; otherwise the rows as JSON |
| Export.ExportBlacklist | app/routes/export.py:11-43 | the JSON export is the effective blacklist read with the same source, row for row and in order; it holds exactly the blacklist rows, not whitelisted, that match a truthy source |
| Export.ExportWhitelist | app/routes/export.py:45-77 | the JSON export is the whitelist read with the same source, row for row and in order; it holds exactly the whitelist rows matching a truthy source, with no precedence |
| Reconciler.AfterScheme | scripts/host.py:187 | `None` if and only if there is no "://"; otherwise the text after the first "://" |
| Reconciler.ApiServer | scripts/host.py:187 | fails exactly when the URL has no "://"; the result never contains ':' |
| Reconciler.ApiServerOfUrl | scripts/host.py:187 | for `scheme://host[:port...]` with no ':' in scheme or host, the server is the host |
| Reconciler.FirstScheme | scripts/host.py:187 | the text after a first "://" is found there |
| Reconciler.HostBeforePort | scripts/host.py:187 | the first ':'-piece of `host` followed by a port part is the host |
| Reconciler.LocalhostServer | scripts/host.py:187 | the default URL `http://localhost:5000` gives `localhost` |
| Reconciler.SplitLines | scripts/host.py:128 | no line holds a line-break character |
| Reconciler.SplitLinesCons | scripts/host.py:128 | a line ends at any character `splitlines` breaks at, "\n", "\r", form feed and the Unicode separators included |
| Reconciler.CrLfLine | scripts/host.py:128 | a "\r\n" line end gives the same non-empty lines as "\n" |
| Reconciler.CrLfPieces | scripts/host.py:128 | the model splits "\r\n" into two breaks, leaving an empty piece between them |
| Reconciler.DropEmptyPiece | scripts/host.py:128 | the `if line.strip()` filter drops such an empty piece |
| Reconciler.NonEmpty | scripts/host.py:128 | keeps exactly the non-empty lines |
| Reconciler.FirstWord | scripts/host.py:128 | `split()[0]` is a non-empty run of non-space characters, and it fails if and only if the line is all spaces |
| Reconciler.WordPrefix | scripts/host.py:128 | the longest space-free prefix |
| Reconciler.FirstWordOf | scripts/host.py:128 | a line of leading spaces, a word, and then nothing or a space followed by anything yields exactly that word: `split()[0]` is the first word |
| Reconciler.WordPrefixStop | scripts/host.py:128 | the space-free prefix of a word followed by nothing or a space is that word |
| Reconciler.FieldLine | scripts/host.py:128 | a listed line made of a word and further space-separated fields yields the word |
| Reconciler.FieldLines | scripts/host.py:128 | every line of such a listing yields its own word and is a non-empty line without a break |
| Reconciler.WordsOfFields | scripts/host.py:128 | when line i yields word i, the set read is exactly the set of those words |
| Reconciler.Words | scripts/host.py:128 | succeeds if and only if every line has a first word; then the set is exactly those first words |
| Reconciler.ReadLive | scripts/host.py:115-132 | a raised or non-zero listing gives the empty set, so a failed read never causes removals; every address read is a space-free word |
| Reconciler.ListingLines | scripts/host.py:128 | the non-empty lines of a rendered listing are its lines |
| Reconciler.ReadRenderedListing | scripts/host.py:115-132 | reading a listing whose line i is word i followed by nothing or by a space and further fields gives exactly those words |
| Reconciler.Diff | scripts/host.py:199-200 | the two sets are disjoint; to-add is within api and to-remove within live; addresses in both are never touched; applying the diff to live gives api; both are empty if and only if api equals live |
| Reconciler.Apply | scripts/host.py:148-168 | an address enters the table only through an add that exited 0, and leaves it only through a delete that exited 0 |
| Reconciler.ApplySnoc | scripts/host.py:148-168 | only a command that exits 0 changes the table, by removing or inserting its address |
| Reconciler.ApplyDeletesFirst | scripts/host.py:148-168 | when deletes precede adds, the final table is the table minus the deleted addresses plus the added ones |
| Reconciler.DeletePhase | scripts/host.py:148-154 | one distinct delete per address to remove; a non-zero exit does not stop the loop; it stops early only if a command raises, and a raising delete is the last one issued |
| Reconciler.AddPhase | scripts/host.py:156-168 | one distinct add per address to add except the guarded server address, which is never added; it stops early only if a command raises, and a raising add is the last one issued |
| Reconciler.UpdateTable | scripts/host.py:134-181 | starts with the base rules and stops there if they raise; every delete precedes every add; no command is repeated; deletes only target addresses to remove and adds only non-guarded addresses to add; without a raise every target gets its command; a command that raises is the last command issued; the probe runs if and only if the server is truthy and nothing raised |
| Reconciler.UpdateRaiseEnds | scripts/host.py:134-181 | a raise in either loop ends the update: nothing, not even the probe, follows it |
| Reconciler.UpdateEffect | scripts/host.py:148-168 | the update's table is the start table minus the deleted addresses plus the added ones |
| Reconciler.ApiIps | scripts/host.py:190-195 | the API set exists if and only if the status is 200 and the body has an `ips` list; then it is exactly that list's members |
| Reconciler.SyncCycle | scripts/host.py:183-209 | a failed URL parse or fetch issues no command; otherwise the listing comes first and the base-rule setup second, ahead of every table command; a base-rule failure issues no table command and leaves the table as it was; a command that raises is the last one issued; an empty diff issues nothing more; deletes only target live addresses the API lacks, and adds only API addresses not live and not the server; if every command succeeds the table becomes the API set, less the server unless it was already blocked |
| Reconciler.CycleFacts | scripts/host.py:196-204 | with no raise, every address where table and API still differ is the server or had a failed command |
| Reconciler.ListedOrder | scripts/host.py:196-204 | after the listing, the base-rule setup still comes first, a base-rule failure still issues no table command, and a raise is still the last command |
| Reconciler.ListedFirst | scripts/host.py:196 | the leading listing changes neither the table nor the outcome sets |
| Reconciler.Converges | scripts/host.py:199-203 | the remaining difference lies within the server address plus the failed addresses; when everything succeeds the table is `api - ({server} - table)` |

## Left out

- IPv6: `validate_ip` and `IPEntry` accept IPv6 text, but the model rejects it, so the model's
  import routes drop or refuse IPv6 tokens that the real code stores.
- Netmask and hostmask forms after '/' (e.g. `10.0.0.0/255.255.255.0`) are accepted by
  `ip_network` but rejected by the model.
- `ip_address` is modelled as it behaves in Python 3.9.5 and later, which reject leading zeros
  in octets.
- Request bodies are modelled only when they are JSON objects whose fields are absent or strings.
  Left out are:
  - a body that is not JSON, which fails with a Python error text;
  - JSON `null`;
  - non-string values;
  - an `ips` that is not a list.
- ListStore.BulkAdd: the table name is spliced into the statement text. The model resolves it
  the way SQLite resolves a plain identifier, ignoring ASCII case, and answers "no such table"
  for anything else. SQLite itself also accepts a `type` padded with whitespace or a comment
  (" blacklist", "blacklist\n"), a quoted identifier or a schema prefix, and such text can hold
  further SQL or raise other SQL errors; none of this is modelled.
- The rows of a table come back in insertion order, which is how an unordered `SELECT` on a
  rowid table that is never deleted from behaves. SQLite does not promise this.
- Text encodings, `datetime` formatting and the JSON encoder are left out. A timestamp is an
  opaque string, and a JSON export is the sequence of rows.
- `Export.ExportBlacklist`, `Export.ExportWhitelist`: the CSV branch is stated through `Render`
  and `CsvDocument`, not as a read-back of every row.
  Quoting is modelled for ',', '"', CR and LF. `Export.RecordRoundTrip` covers only cells that
  need no quoting.
- The HTTP status codes, mimetypes and download names are left out, as is the generic
  `except Exception` reply of the export routes, which the model's total functions never reach.
- `Reconciler.ReadLive`: the model takes the first word of each listed line as printed. It does
  not model the `address/prefix value` form that ipfw prints, under which a listed word would not
  equal the API's address text.
- `setup_base_rules` is modelled as a single step that either returns or raises. Its
  `"65535" in stdout` test and its `ipfw show`/`ipfw add` calls are left out.
- The `/health` probe is modelled as a `HealthCheck` command in the trace. Its result is only
  logged, so it has no effect on the table.
- `sync_with_api`: a raise while decoding the reply is modelled as `ApiIps` being `None`. A
  listing that raises is modelled as an empty live set, as the code's own `except` does.
- Storage failures are left out: the model's inserts never fail. In the code, an
  `OperationalError` from a locked or missing database is caught by the import routes'
  `except Exception` blocks and answered with its text as a 400.
- Memory is unbounded in the model: expanding a very short prefix such as `0.0.0.0/1` gives
  Created, where the code runs out of memory and answers the `MemoryError` as a 400.
- Logging, the `while True` loop with its sleep, `main`, and `scripts/controller.py` are left
  out, because they concern timing and scheduling only.
- `import_blocklist_de`, `bulk_add_to_blacklist`, `bulk_add_to_whitelist` and `init_db` are
  outside the modelled core.
- Sets are iterated in an arbitrary order (`:|`): the model proves its properties for every
  order, and does not fix the order CPython's set iteration happens to produce.

=== FILE: bulk_import.dfy ===
/** The two import routes of `app/routes/import_routes.py`: the bulk
    normaliser, which turns a list of address and network tokens into store
    entries, and the single import with its list-type dispatch. */
module Import {
  import opened Wrappers
  import opened Ipv4
  import opened ListStore

  /** A JSON request body as the routes read it: each field is absent or a
      string (JSON `null` and other value types are not modelled). */
  datatype BulkRequest = BulkRequest(
    ips: Option<seq<string>>,
    listType: Option<string>,
    source: Option<string>,
    reason: Option<string>,
    comment: Option<string>)

  datatype SingleRequest = SingleRequest(
    ip: Option<string>,
    listType: Option<string>,
    source: Option<string>,
    reason: Option<string>,
    comment: Option<string>)

  /** The routes' replies: 201 with a `message`, 400 with an `error`, or 400
      carrying the schema library's validation error for an `IPEntry`. */
  datatype Response = Created(message: string) | BadRequest(error: string) | InvalidEntry

  // ---------------------------------------------------------------------------
  // Token normalisation

  /** A valid token with a '/' is a network and never an address. */
  lemma NetworkToken(v: string)
    requires ValidateIp(v).Some? && '/' in v
    ensures ParseAddr(v).None? && ParseNetwork(v).Some?
  {
    if ParseAddr(v).Some? {
      FormatParse(v);
      FormatAddrNoSlash(ParseAddr(v).value);
    }
  }

  /** A valid token without a '/' is an address. */
  lemma AddressToken(v: string)
    requires ValidateIp(v).Some? && '/' !in v
    ensures ParseAddr(v).Some?
  {
    ParseNetworkNoSlash(v);
  }

  lemma HostCountPositive(p: PrefixLen)
    ensures HostCount(p) >= 1
  {
    if p < 31 {
      Pow2AtLeastFour(32 - p);
    }
  }

  /** What one token of `ips` contributes to the batch: nothing when
      `validate_ip` rejects it, the host texts of the network when it holds
      a '/' (`ExpandShape`), and the token itself otherwise. */
  function Expand(token: string): (r: seq<string>)
    ensures r == [] <==> ValidateIp(token).None?
    ensures forall a :: a in r ==> ParseAddr(a).Some?
  {
    match ValidateIp(token)
    case None => []
    case Some(v) =>
      if '/' in v then
        NetworkToken(v);
        var n := ParseNetwork(v).value;
        HostCountPositive(n.prefix);
        HostsInside(v, n);
        ParseIpRange(v).value
      else
        AddressToken(v);
        [v]
  }

  /** A valid address token expands to itself; a network token to the
      texts of its network's hosts, `HostCount` addresses all inside it. */
  lemma ExpandShape(token: string)
    ensures ValidateIp(token).Some? && '/' !in token ==> Expand(token) == [token]
    ensures '/' in token ==>
      match ParseNetwork(token)
      case None => Expand(token) == []
      case Some(n) =>
        && Expand(token) == AddrTexts(Hosts(n))
        && |Expand(token)| == HostCount(n.prefix)
        && forall i :: 0 <= i < |Expand(token)| ==>
             n.address <= ParseAddr(Expand(token)[i]).value < n.address + BlockSize(n.prefix)
  {
    match ValidateIp(token)
    case None =>
    case Some(v) =>
      if '/' in v {
        NetworkToken(v);
        HostsInside(v, ParseNetwork(v).value);
      }
  }

  lemma HostsInside(s: string, n: Network)
    requires ParseNetwork(s) == Some(n)
    ensures var texts := ParseIpRange(s).value;
      forall i :: 0 <= i < |texts| ==>
        ParseAddr(texts[i]).Some?
        && n.address <= ParseAddr(texts[i]).value < n.address + BlockSize(n.prefix)
  {
    RangeHostsInside(s, n);
    forall h | h in Hosts(n)
      ensures n.address <= h < n.address + BlockSize(n.prefix)
    {
      HostsExactly(n, h);
    }
  }

  /** The normalisation loop of `import_bulk`: the expansions of the tokens,
      concatenated in token order; it holds only canonical dotted quads. */
  function Addresses(tokens: seq<string>): (r: seq<string>)
    ensures forall a :: a in r ==> ParseAddr(a).Some?
  {
    if |tokens| == 0 then []
    else Expand(tokens[0]) + Addresses(tokens[1..])
  }

  /** The batch is empty exactly when every token is invalid. */
  lemma {:induction false} AddressesEmpty(tokens: seq<string>)
    ensures Addresses(tokens) == [] <==> forall i :: 0 <= i < |tokens| ==> ValidateIp(tokens[i]).None?
  {
    if |tokens| > 0 {
      var head := Expand(tokens[0]);
      assert Addresses(tokens) == head + Addresses(tokens[1..]);
      assert head == [] <==> ValidateIp(tokens[0]).None?;
      AddressesEmpty(tokens[1..]);
      assert forall i :: 1 <= i < |tokens| ==> tokens[i] == tokens[1..][i - 1];
    }
  }

  /** The batch of a token list is the batch of its head followed by the
      batch of its tail, at every split point. */
  lemma {:induction false} AddressesAppend(a: seq<string>, b: seq<string>)
    ensures Addresses(a + b) == Addresses(a) + Addresses(b)
    decreases |a|
  {
    if |a| == 0 {
      assert a + b == b;
    } else {
      var head, x, y := Expand(a[0]), Addresses(a[1..]), Addresses(b);
      assert Addresses(a + b) == head + Addresses(a[1..] + b) by {
        TailOfAppend(a, b);
      }
      assert Addresses(a) == head + x;
      assert Addresses(a[1..] + b) == x + y by {
        AddressesAppend(a[1..], b);
      }
      assert head + (x + y) == (head + x) + y by {
        ConcatAssoc(head, x, y);
      }
    }
  }

  lemma SplitAt<T>(s: seq<T>, i: nat)
    requires i < |s|
    ensures s == s[..i] + [s[i]] + s[i + 1..]
  {
  }

  lemma InMiddle<T>(x: seq<T>, e: seq<T>, y: seq<T>, a: T)
    requires a in e
    ensures a in x + e + y
  {
  }

  lemma TailOfAppend<T>(a: seq<T>, b: seq<T>)
    requires |a| > 0
    ensures (a + b)[0] == a[0] && (a + b)[1..] == a[1..] + b
  {
  }

  /** A single token's batch is its expansion. */
  lemma AddressesOne(t: string)
    ensures Addresses([t]) == Expand(t)
  {
    assert [t][1..] == [];
    assert Addresses([t]) == Expand(t) + Addresses([]);
  }

  /** Each token contributes its expansion, in place: the batch of a token
      list is the batch before the token, the token's expansion, and the
      batch after it. */
  lemma AddressesSlot(a: seq<string>, t: string, b: seq<string>)
    ensures Addresses(a + [t] + b) == Addresses(a) + Expand(t) + Addresses(b)
  {
    AddressesAppend(a, [t]);
    AddressesAppend(a + [t], b);
    AddressesOne(t);
  }

  /** How many addresses a token contributes, from `validate_ip` and the
      parsed network alone: none when it is rejected, one for an address,
      and the network's host count for a network. */
  function TokenSize(t: string): nat {
    if ValidateIp(t).None? then 0
    else if '/' !in t then 1
    else
      match ParseNetwork(t)
      case None => 0
      case Some(n) => HostCount(n.prefix)
  }

  /** The number of addresses a token list contributes. */
  function BatchSize(tokens: seq<string>): nat {
    if |tokens| == 0 then 0 else TokenSize(tokens[0]) + BatchSize(tokens[1..])
  }

  /** The batch holds one address per address token and `HostCount` per
      network token, so the count the route reports is that sum. */
  lemma {:induction false} AddressesCount(tokens: seq<string>)
    ensures |Addresses(tokens)| == BatchSize(tokens)
  {
    if |tokens| > 0 {
      var t := tokens[0];
      ExpandShape(t);
      assert |Expand(t)| == TokenSize(t);
      assert Addresses(tokens) == Expand(t) + Addresses(tokens[1..]);
      AddressesCount(tokens[1..]);
    }
  }

  /** Every address a token expands to is in the batch. */
  lemma AddressesHold(tokens: seq<string>, i: nat, a: string)
    requires i < |tokens| && a in Expand(tokens[i])
    ensures a in Addresses(tokens)
  {
    SplitAt(tokens, i);
    AddressesSlot(tokens[..i], tokens[i], tokens[i + 1..]);
    InMiddle(Addresses(tokens[..i]), Expand(tokens[i]), Addresses(tokens[i + 1..]), a);
  }

  /** Every address in the batch comes from some token's expansion. */
  lemma {:induction false} AddressesFrom(tokens: seq<string>, a: string)
    requires a in Addresses(tokens)
    ensures exists i :: 0 <= i < |tokens| && a in Expand(tokens[i])
    decreases |tokens|
  {
    assert Addresses(tokens) == Expand(tokens[0]) + Addresses(tokens[1..]);
    if a !in Expand(tokens[0]) {
      AddressesFrom(tokens[1..], a);
      var j :| 0 <= j < |tokens[1..]| && a in Expand(tokens[1..][j]);
      assert tokens[1..][j] == tokens[j + 1];
    }
  }

  /** An invalid token is dropped without affecting the rest of the batch. */
  lemma InvalidTokenDropped(a: seq<string>, t: string, b: seq<string>)
    requires ValidateIp(t).None?
    ensures Addresses(a + [t] + b) == Addresses(a + b)
  {
    assert Addresses([t]) == [] by {
      assert [t][1..] == [];
    }
    assert Addresses(a + [t]) == Addresses(a) by {
      AddressesAppend(a, [t]);
    }
    AddressesAppend(a + [t], b);
    AddressesAppend(a, b);
  }

  /** The tuples handed to `bulk_add`: entry k holds the k-th address, the
      batch's source, reason and comment, and the k-th clock reading (the
      route reads the clock once per entry). */
  function Entries(addrs: seq<string>, source: string, reason: Option<string>,
                   comment: Option<string>, clock: nat -> Timestamp): (r: seq<Row>)
    ensures |r| == |addrs|
    ensures forall k :: 0 <= k < |r| ==> r[k] == Row(addrs[k], source, clock(k), reason, comment)
  {
    if |addrs| == 0 then []
    else
      var n := |addrs| - 1;
      Entries(addrs[..n], source, reason, comment, clock) + [Row(addrs[n], source, clock(n), reason, comment)]
  }

  // ---------------------------------------------------------------------------
  // The routes

  /** `import_bulk`: the list type defaults to "blacklist" and the source to
      "bulk-import"; a missing `ips` fails with the `KeyError` text, an
      all-invalid batch with "No valid IPs provided", and a list type that
      names no table with the SQL error; only a reply of 201 writes. */
  function ImportBulk(st: Store, req: BulkRequest, clock: nat -> Timestamp): (r: (Store, Response))
    ensures r.1.Created? || r.0 == st
    ensures req.ips.None? ==> r == (st, BadRequest("'ips'"))
    ensures req.ips.Some? && Addresses(req.ips.value) == [] ==> r == (st, BadRequest("No valid IPs provided"))
    ensures r.1.Created? <==>
      req.ips.Some? && Addresses(req.ips.value) != [] && TableKind(req.listType.GetOr("blacklist")).Some?
    ensures r.1.Created? ==>
      r.1.message == BulkMessage(|Addresses(req.ips.value)|, req.listType.GetOr("blacklist"))
  {
    var listType := req.listType.GetOr("blacklist");
    var source := req.source.GetOr("bulk-import");
    match req.ips
    case None => (st, BadRequest("'ips'"))
    case Some(tokens) =>
      var addrs := Addresses(tokens);
      if addrs == [] then (st, BadRequest("No valid IPs provided"))
      else
        match BulkAdd(st, listType, Entries(addrs, source, req.reason, req.comment, clock))
        case None => (st, BadRequest("no such table: " + listType))
        case Some((st', message)) => (st', Created(message))
  }

  /** What a successful bulk import writes: the table it names gains only
      rows built from the batch (canonical addresses not stored before,
      carrying the batch's source, reason and comment), and the other table
      is untouched. */
  lemma BulkImportRows(st: Store, req: BulkRequest, clock: nat -> Timestamp)
    requires ImportBulk(st, req, clock).1.Created?
    ensures var k := TableKind(req.listType.GetOr("blacklist")).value;
      var st' := ImportBulk(st, req, clock).0;
      && Rows(st', Other(k)) == Rows(st, Other(k))
      && |Rows(st, k)| <= |Rows(st', k)| && Rows(st', k)[..|Rows(st, k)|] == Rows(st, k)
      && forall i :: |Rows(st, k)| <= i < |Rows(st', k)| ==>
           var row := Rows(st', k)[i];
           && row.ip in Addresses(req.ips.value) && row.ip !in Ips(Rows(st, k))
           && ParseAddr(row.ip).Some?
           && row.source == req.source.GetOr("bulk-import")
           && row.reason == req.reason && row.comment == req.comment
    ensures var k := TableKind(req.listType.GetOr("blacklist")).value;
      var entries := Entries(Addresses(req.ips.value), req.source.GetOr("bulk-import"), req.reason, req.comment, clock);
      Rows(ImportBulk(st, req, clock).0, k) == Rows(st, k) + FirstNew(Ips(Rows(st, k)), entries)
  {
    var k := TableKind(req.listType.GetOr("blacklist")).value;
    var addrs := Addresses(req.ips.value);
    var entries := Entries(addrs, req.source.GetOr("bulk-import"), req.reason, req.comment, clock);
    var added := FirstNew(Ips(Rows(st, k)), entries);
    var st' := ImportBulk(st, req, clock).0;
    assert Rows(st', k) == Rows(st, k) + added;
    forall i | |Rows(st, k)| <= i < |Rows(st', k)|
      ensures Rows(st', k)[i] in entries && Rows(st', k)[i].ip !in Ips(Rows(st, k))
    {
      assert Rows(st', k)[i] == added[i - |Rows(st, k)|];
    }
  }

  /** `import_single`: the list type defaults to "blacklist", and any other
      value, whatever it is, routes to the whitelist; the source defaults to
      "manual". An input `validate_ip` rejects gives "Invalid IP address"; a
      valid network fails the address field of `IPEntry`; an address is
      inserted as the text of the parsed address, which is the input. */
  function ImportSingle(st: Store, req: SingleRequest, now: Timestamp): (r: (Store, Response))
    ensures r.1.Created? || r.0 == st
    ensures (req.ip.None? || ValidateIp(req.ip.value).None?) ==> r == (st, BadRequest("Invalid IP address"))
    ensures req.ip.Some? && ValidateIp(req.ip.value).Some? && '/' in req.ip.value ==> r == (st, InvalidEntry)
    ensures r.1.Created? <==> req.ip.Some? && ParseAddr(req.ip.value).Some?
    ensures r.1.Created? ==>
      var k := if req.listType.GetOr("blacklist") == "blacklist" then Blacklist else Whitelist;
      && req.ip.value in Ips(Rows(r.0, k))
      && Rows(r.0, Other(k)) == Rows(st, Other(k))
      && (req.ip.value !in Ips(Rows(st, k)) ==>
            Rows(r.0, k) == Rows(st, k) + [Row(req.ip.value, req.source.GetOr("manual"), now, req.reason, req.comment)])
      && (req.ip.value in Ips(Rows(st, k)) ==> r.0 == st)
    ensures r.1.Created? ==>
      var ip := req.ip.value;
      var source := req.source.GetOr("manual");
      if req.listType.GetOr("blacklist") == "blacklist" then
        r.1.message ==
          if ip in Ips(st.blacklist) then "IP " + ip + " already exists in blacklist"
          else "Added " + ip + " to blacklist from source " + source
      else
        r.1.message ==
          if ip in Ips(st.whitelist) then "IP " + ip + " already exists in whitelist"
          else "Added " + ip + " to whitelist from source " + source
  {
    var ip := req.ip.GetOr("");
    if req.ip.None? || ValidateIp(ip).None? then (st, BadRequest("Invalid IP address"))
    else
      match ParseAddr(ip)
      case None =>
        assert '/' in ip by {
          if '/' !in ip {
            AddressToken(ip);
          }
        }
        (st, InvalidEntry)
      case Some(a) =>
        assert '/' !in ip by {
          if '/' in ip {
            NetworkToken(ip);
          }
        }
        FormatParse(ip);
        var text := FormatAddr(a);
        var source := req.source.GetOr("manual");
        if req.listType.GetOr("blacklist") == "blacklist" then
          var (st', message) := AddToBlacklist(st, text, source, req.reason, req.comment, now);
          (st', Created(message))
        else
          var (st', message) := AddToWhitelist(st, text, source, req.reason, req.comment, now);
          (st', Created(message))
  }

  /** Importing the same address a second time, at any time, changes
      nothing and reports that the address already exists. */
  lemma ImportSingleAgain(st: Store, req: SingleRequest, now: Timestamp, later: Timestamp)
    requires ImportSingle(st, req, now).1.Created?
    ensures var st' := ImportSingle(st, req, now).0;
      var ip := req.ip.value;
      ImportSingle(st', req, later) == (st', Created(
        if req.listType.GetOr("blacklist") == "blacklist" then "IP " + ip + " already exists in blacklist"
        else "IP " + ip + " already exists in whitelist"))
  {
    var st' := ImportSingle(st, req, now).0;
    var k := if req.listType.GetOr("blacklist") == "blacklist" then Blacklist else Whitelist;
    assert req.ip.value in Ips(Rows(st', k));
    var again := ImportSingle(st', req, later);
    assert again.1.Created?;
    assert again.0 == st';
    if req.listType.GetOr("blacklist") == "blacklist" {
      assert req.ip.value in Ips(st'.blacklist);
      assert again.1.message == "IP " + req.ip.value + " already exists in blacklist";
    } else {
      assert req.ip.value in Ips(st'.whitelist);
      assert again.1.message == "IP " + req.ip.value + " already exists in whitelist";
    }
  }
}

=== FILE: export.dfy ===
/** The read-only renderings of `app/routes/export.py`: the address payload
    and the iptables rules built from the effective blacklist, and the CSV
    or JSON export of either table. */
module Export {
  import opened Wrappers
  import opened Text
  import opened ListStore

  // ---------------------------------------------------------------------------
  // The iptables payloads

  /** The `{count, ips, format}` reply of the address export. */
  datatype IpsPayload = IpsPayload(count: nat, ips: seq<string>, format: string)

  /** The `{count, rules, format}` reply of the rules export. */
  datatype RulesPayload = RulesPayload(count: nat, rules: seq<string>, format: string)

  /** The `ip` column of some rows, in row order. */
  function IpColumn(rows: seq<Row>): (r: seq<string>)
    ensures |r| == |rows|
    ensures forall i :: 0 <= i < |rows| ==> r[i] == rows[i].ip
  {
    if |rows| == 0 then [] else [rows[0].ip] + IpColumn(rows[1..])
  }

  /** `export_iptables`: the addresses of the whole effective blacklist (no
      source filter), in the store's order; no whitelisted address appears. */
  function ExportIptables(st: Store): (r: IpsPayload)
    ensures r.count == |r.ips| == |GetBlacklist(st, None)|
    ensures forall i :: 0 <= i < |r.ips| ==>
      r.ips[i] == GetBlacklist(st, None)[i].ip
      && r.ips[i] in Ips(st.blacklist) && r.ips[i] !in Ips(st.whitelist)
    ensures r.format == "plain"
  {
    var rows := GetBlacklist(st, None);
    var ips := IpColumn(rows);
    assert forall i :: 0 <= i < |rows| ==> rows[i] in rows;
    IpsPayload(|ips|, ips, "plain")
  }

  /** The addresses exported are exactly those blacklisted and not
      whitelisted. */
  lemma ExportedAddresses(st: Store)
    ensures var ips := ExportIptables(st).ips;
      forall ip :: ip in ips <==> ip in Ips(st.blacklist) && ip !in Ips(st.whitelist)
  {
    var rows := GetBlacklist(st, None);
    var ips := ExportIptables(st).ips;
    EffectiveIps(st);
    forall ip | ip in Ips(st.blacklist) && ip !in Ips(st.whitelist)
      ensures ip in ips
    {
      assert ip in Ips(rows);
      var row :| row in rows && row.ip == ip;
      var i :| 0 <= i < |rows| && rows[i] == row;
      assert ips[i] == ip;
    }
  }

  const RulePrefix: string := "iptables -A INPUT -s "

  /** One rule line: append a rule to the INPUT chain that matches the
      row's address and jumps to DROP, with the row's source as a trailing
      comment. A rule for a space-free address reads back as that address,
      the target "DROP" and the source. */
  function Rule(row: Row): (r: string)
    ensures ' ' !in row.ip ==> ReadRule(r) == Some((row.ip, "DROP", row.source))
  {
    var line := RulePrefix + row.ip + " -j DROP # " + row.source;
    if ' ' in row.ip then line
    else
      RuleWords(row.ip, row.source);
      line
  }

  lemma RuleWords(ip: string, source: string)
    requires ' ' !in ip
    ensures ReadRule(RulePrefix + ip + " -j DROP # " + source) == Some((ip, "DROP", source))
  {
    var line := RulePrefix + ip + " -j DROP # " + source;
    var r3 := "#" + [' '] + source;
    var r2 := "DROP" + [' '] + r3;
    var r1 := "-j" + [' '] + r2;
    assert line == RulePrefix + (ip + [' '] + r1);
    assert line[|RulePrefix|..] == ip + [' '] + r1;
    NextWordOf(ip, r1);
    NextWordOf("-j", r2);
    NextWordOf("DROP", r3);
    NextWordOf("#", source);
  }

  /** The first word of `s` and the text after the single space that ends
      it; nothing when no space follows the word. */
  function NextWord(s: string): (r: Option<(string, string)>)
    ensures r.Some? ==> ' ' !in r.value.0 && s == r.value.0 + [' '] + r.value.1
  {
    if |s| == 0 then None
    else if s[0] == ' ' then Some(([], s[1..]))
    else
      match NextWord(s[1..])
      case None => None
      case Some((w, t)) => Some(([s[0]] + w, t))
  }

  lemma {:induction false} NextWordOf(w: string, t: string)
    requires ' ' !in w
    ensures NextWord(w + [' '] + t) == Some((w, t))
    decreases |w|
  {
    if |w| == 0 {
      assert w + [' '] + t == [' '] + t;
    } else {
      assert (w + [' '] + t)[1..] == w[1..] + [' '] + t;
      NextWordOf(w[1..], t);
      assert [w[0]] + w[1..] == w;
    }
  }

  /** Reading a rule line: after the fixed prefix, the address, "-j", the
      target, "#", and the comment that runs to the end of the line. */
  function ReadRule(line: string): Option<(string, string, string)> {
    if |line| < |RulePrefix| || line[..|RulePrefix|] != RulePrefix then None
    else
      match NextWord(line[|RulePrefix|..])
      case None => None
      case Some((address, r1)) =>
        match NextWord(r1)
        case None => None
        case Some((jump, r2)) =>
          if jump != "-j" then None
          else
            match NextWord(r2)
            case None => None
            case Some((target, r3)) =>
              match NextWord(r3)
              case None => None
              case Some((hash, comment)) =>
                if hash != "#" then None else Some((address, target, comment))
  }

  function Rules(rows: seq<Row>): (r: seq<string>)
    ensures |r| == |rows|
    ensures forall i :: 0 <= i < |rows| ==> r[i] == Rule(rows[i])
  {
    if |rows| == 0 then [] else [Rule(rows[0])] + Rules(rows[1..])
  }

  /** `export_iptables_rules`: one rule per effective blacklist row, in
      order, with `count` the number of rules. */
  function ExportIptablesRules(st: Store): (r: RulesPayload)
    ensures r.count == |r.rules| == |GetBlacklist(st, None)|
    ensures forall i :: 0 <= i < |r.rules| ==> r.rules[i] == Rule(GetBlacklist(st, None)[i])
    ensures r.format == "iptables"
  {
    var rules := Rules(GetBlacklist(st, None));
    RulesPayload(|rules|, rules, "iptables")
  }

  /** Each rule drops the address of its row, and of no whitelisted row:
      reading rule i back gives row i's address, the target DROP and row
      i's source. */
  lemma RulesReadBack(st: Store)
    requires forall row :: row in st.blacklist ==> ' ' !in row.ip
    ensures var rows := GetBlacklist(st, None);
      var rules := ExportIptablesRules(st).rules;
      forall i :: 0 <= i < |rules| ==>
        ReadRule(rules[i]) == Some((rows[i].ip, "DROP", rows[i].source)) && rows[i].ip !in Ips(st.whitelist)
  {
    var rows := GetBlacklist(st, None);
    forall i | 0 <= i < |rows|
      ensures ReadRule(Rule(rows[i])) == Some((rows[i].ip, "DROP", rows[i].source))
    {
      assert rows[i] in rows;
    }
  }

  // ---------------------------------------------------------------------------
  // CSV

  /** The fixed column order of both CSV exports. */
  const Columns: seq<string> := ["ip", "source", "added_at", "reason", "comment"]

  /** A cell `csv.writer` must quote (excel dialect, minimal quoting). */
  predicate NeedsQuotes(s: string) {
    ',' in s || '"' in s || '\r' in s || '\n' in s
  }

  /** Every '"' written twice. */
  function DoubleQuotes(s: string): (r: string)
    ensures |r| >= |s|
  {
    if |s| == 0 then []
    else (if s[0] == '"' then "\"\"" else [s[0]]) + DoubleQuotes(s[1..])
  }

  /** Reading a doubled-quote text back. */
  function UndoubleQuotes(s: string): string
    decreases |s|
  {
    if |s| == 0 then []
    else if s[0] == '"' && |s| >= 2 && s[1] == '"' then "\"" + UndoubleQuotes(s[2..])
    else [s[0]] + UndoubleQuotes(s[1..])
  }

  lemma {:induction false} UndoubleDouble(s: string)
    ensures UndoubleQuotes(DoubleQuotes(s)) == s
    decreases |s|
  {
    if |s| > 0 {
      var tail := DoubleQuotes(s[1..]);
      UndoubleDouble(s[1..]);
      if s[0] == '"' {
        assert DoubleQuotes(s) == "\"\"" + tail;
        assert ("\"\"" + tail)[2..] == tail;
      } else {
        assert DoubleQuotes(s) == [s[0]] + tail;
        assert ([s[0]] + tail)[1..] == tail;
      }
      assert s == [s[0]] + s[1..];
    }
  }

  /** One cell as written: quoted, with inner quotes doubled, when it needs
      it; verbatim otherwise. */
  function Cell(s: string): (r: string)
    ensures !NeedsQuotes(s) ==> r == s
    ensures NeedsQuotes(s) ==>
      && |r| >= 2 && r[0] == '"' && r[|r| - 1] == '"'
      && UndoubleQuotes(r[1..|r| - 1]) == s
  {
    if NeedsQuotes(s) then
      var body := DoubleQuotes(s);
      UndoubleDouble(s);
      assert ("\"" + body + "\"")[1..|body| + 1] == body;
      "\"" + body + "\""
    else s
  }

  /** A `None` column is written as the empty cell. */
  function OptionalText(o: Option<string>): string {
    o.GetOr("")
  }

  /** The cells of a row, in column order. */
  function RowCells(row: Row): seq<string> {
    [row.ip, row.source, row.addedAt, OptionalText(row.reason), OptionalText(row.comment)]
  }

  function CellTexts(cells: seq<string>): (r: seq<string>)
    ensures |r| == |cells|
    ensures forall i :: 0 <= i < |cells| ==> r[i] == Cell(cells[i])
  {
    if |cells| == 0 then [] else [Cell(cells[0])] + CellTexts(cells[1..])
  }

  /** One record: the cells joined by ',' and ended by "\r\n". */
  function Record(cells: seq<string>): string
    requires |cells| >= 1
  {
    Join(CellTexts(cells), ',') + "\r\n"
  }

  /** `writeheader()` then `writerows(rows)`: the header record, then one
      record per row, in order. */
  function CsvDocument(rows: seq<Row>): (r: string)
    ensures |Record(Columns)| <= |r|
    ensures ReadRecord(r[..|Record(Columns)|]) == Some(Columns)
    ensures r[|Record(Columns)|..] == Records(rows)
  {
    HeaderRoundTrip();
    Record(Columns) + Records(rows)
  }

  function Records(rows: seq<Row>): string {
    if |rows| == 0 then [] else Record(RowCells(rows[0])) + Records(rows[1..])
  }

  /** The records of two row lists, one after the other. */
  lemma {:induction false} RecordsAppend(a: seq<Row>, b: seq<Row>)
    ensures Records(a + b) == Records(a) + Records(b)
    decreases |a|
  {
    if |a| == 0 {
      assert a + b == b;
    } else {
      assert (a + b)[1..] == a[1..] + b;
      RecordsAppend(a[1..], b);
    }
  }

  /** Reading a record of cells that need no quoting: strip the line end
      and split on ','. */
  function ReadRecord(line: string): Option<seq<string>> {
    if |line| >= 2 && line[|line| - 2..] == "\r\n" then Some(Split(line[..|line| - 2], ','))
    else None
  }

  /** Reading back the five columns: an empty cell is read as `None`. */
  function ReadRow(cells: seq<string>): Option<Row> {
    if |cells| != 5 then None
    else
      Some(Row(cells[0], cells[1], cells[2],
               if cells[3] == "" then None else Some(cells[3]),
               if cells[4] == "" then None else Some(cells[4])))
  }

  /** A record of cells that need no quoting reads back as those cells. */
  lemma PlainRecordRoundTrip(cells: seq<string>)
    requires |cells| >= 1
    requires forall i :: 0 <= i < |cells| ==> !NeedsQuotes(cells[i])
    ensures ReadRecord(Record(cells)) == Some(cells)
  {
    var texts := CellTexts(cells);
    assert texts == cells;
    var line := Record(cells);
    assert line[..|line| - 2] == Join(cells, ',');
    assert line[|line| - 2..] == "\r\n";
    SplitJoin(cells, ',');
  }

  /** A row whose cells need no quoting, and whose reason and comment are
      not the empty text, reads back from its record unchanged. */
  lemma RecordRoundTrip(row: Row)
    requires forall i :: 0 <= i < 5 ==> !NeedsQuotes(RowCells(row)[i])
    requires row.reason != Some("") && row.comment != Some("")
    ensures ReadRecord(Record(RowCells(row))) == Some(RowCells(row))
    ensures ReadRow(RowCells(row)) == Some(row)
  {
    PlainRecordRoundTrip(RowCells(row));
  }

  /** The header reads back as the column names. */
  lemma HeaderRoundTrip()
    ensures ReadRecord(Record(Columns)) == Some(Columns)
  {
    forall i | 0 <= i < |Columns|
      ensures !NeedsQuotes(Columns[i])
    {
    }
    PlainRecordRoundTrip(Columns);
  }

  // ---------------------------------------------------------------------------
  // The table exports

  /** An export reply: a CSV attachment or the rows as JSON. */
  datatype Export = Csv(text: string) | Json(rows: seq<Row>)

  /** `format` exactly "csv" selects CSV; any other value, or none, JSON. */
  function Render(rows: seq<Row>, format: Option<string>): (r: Export)
    ensures r.Csv? <==> format == Some("csv")
    ensures r.Csv? ==> r.text == CsvDocument(rows)
    ensures r.Json? ==> r.rows == rows
  {
    if format.GetOr("json") == "csv" then Csv(CsvDocument(rows)) else Json(rows)
  }

  /** `export_blacklist`: the effective blacklist, filtered by a truthy
      source. */
  function ExportBlacklist(st: Store, format: Option<string>, source: Option<string>): (r: Export)
    ensures r.Json? ==> r.rows == GetBlacklist(st, source)
    ensures r.Json? ==> forall row :: row in r.rows <==>
      row in st.blacklist && row.ip !in Ips(st.whitelist) && SourceMatches(source, row)
    ensures r.Csv? <==> format == Some("csv")
  {
    Render(GetBlacklist(st, source), format)
  }

  /** `export_whitelist`: the whitelist as stored, with no precedence. */
  function ExportWhitelist(st: Store, format: Option<string>, source: Option<string>): (r: Export)
    ensures r.Json? ==> r.rows == GetWhitelist(st, source)
    ensures r.Json? ==> forall row :: row in r.rows <==> row in st.whitelist && SourceMatches(source, row)
    ensures r.Csv? <==> format == Some("csv")
  {
    Render(GetWhitelist(st, source), format)
  }
}

=== FILE: ipv4.dfy ===
/** IPv4 addresses and networks as `utils/validators.py` reads them through
    Python's `ipaddress` module: dotted-quad addresses, networks in prefix
    notation (section 3.1 of RFC 4632) with host bits masked off, and the
    host enumeration of `IPv4Network.hosts()`. */
module Ipv4 {
  import opened Wrappers
  import opened Text

  const AddressCount: nat := 0x1_0000_0000

  /** An IPv4 address as its 32-bit unsigned value. */
  type Addr = a: nat | a < AddressCount
  type Octet = n: nat | n < 256
  type PrefixLen = p: nat | p <= 32

  // ---------------------------------------------------------------------------
  // Addresses

  /** One dotted-quad component as `ipaddress` accepts it: one to three ASCII
      digits, no leading zero, value at most 255. */
  function ParseOctet(t: string): (r: Option<Octet>)
    ensures r.Some? ==> NatToDecimal(r.value) == t
  {
    if |t| == 0 || !AllDigits(t) || |t| > 3 then None
    else if t != "0" && t[0] == '0' then None
    else
      var v := DecimalValue(t);
      if v > 255 then None
      else
        CanonicalRoundTrip(t);
        Some(v)
  }

  lemma OctetRoundTrip(n: Octet)
    ensures ParseOctet(NatToDecimal(n)) == Some(n)
  {
  }

  function FromOctets(o0: Octet, o1: Octet, o2: Octet, o3: Octet): Addr {
    o0 * 0x100_0000 + o1 * 0x1_0000 + o2 * 0x100 + o3
  }

  /** The four octets of an address, most significant first. */
  function OctetsOf(a: Addr): (o: seq<Octet>)
    ensures |o| == 4
    ensures FromOctets(o[0], o[1], o[2], o[3]) == a
  {
    var q1 := a / 256;
    var q2 := q1 / 256;
    var q3 := q2 / 256;
    [q3, q2 % 256, q1 % 256, a % 256]
  }

  lemma OctetsOfFromOctets(o0: Octet, o1: Octet, o2: Octet, o3: Octet)
    ensures OctetsOf(FromOctets(o0, o1, o2, o3)) == [o0, o1, o2, o3]
  {
    var a := FromOctets(o0, o1, o2, o3);
    assert a / 256 == o0 * 0x1_0000 + o1 * 0x100 + o2;
    assert a / 256 / 256 == o0 * 0x100 + o1;
    assert a / 256 / 256 / 256 == o0;
  }

  /** The decimal text of each octet. */
  function OctetTexts(os: seq<Octet>): (r: seq<string>)
    ensures |r| == |os|
    ensures forall i :: 0 <= i < |os| ==> r[i] == NatToDecimal(os[i])
  {
    if |os| == 0 then [] else [NatToDecimal(os[0])] + OctetTexts(os[1..])
  }

  /** `int` of each dot-separated piece, or nothing if one piece is not an octet. */
  function ParseOctets(parts: seq<string>): (r: Option<seq<Octet>>)
    ensures r.Some? ==> |r.value| == |parts|
    ensures r.Some? <==> forall i :: 0 <= i < |parts| ==> ParseOctet(parts[i]).Some?
    ensures r.Some? ==> forall i :: 0 <= i < |parts| ==> ParseOctet(parts[i]) == Some(r.value[i])
  {
    if |parts| == 0 then Some([])
    else
      var head := ParseOctet(parts[0]);
      var tail := ParseOctets(parts[1..]);
      if head.Some? && tail.Some? then Some([head.value] + tail.value)
      else
        assert !head.Some? || !ParseOctet(parts[1..][NotOctet(parts[1..])]).Some?;
        None
  }

  /** The index of a piece that is not an octet, when there is one. */
  function NotOctet(parts: seq<string>): (i: nat)
    requires exists i :: 0 <= i < |parts| && !ParseOctet(parts[i]).Some?
    ensures i < |parts| && !ParseOctet(parts[i]).Some?
  {
    if !ParseOctet(parts[0]).Some? then 0 else 1 + NotOctet(parts[1..])
  }

  /** `str(IPv4Address(a))`: the dotted-quad text of an address, seven to
      fifteen characters long. */
  function FormatAddr(a: Addr): (r: string)
    ensures 7 <= |r| <= 15
  {
    var o := OctetsOf(a);
    var t := OctetTexts(o);
    Join4(t[0], t[1], t[2], t[3], '.');
    assert t == [t[0], t[1], t[2], t[3]];
    Join(t, '.')
  }

  /** `IPv4Address(s)`: exactly four dot-separated octets. What it accepts
      is exactly the text `FormatAddr` writes for the value, so no variant
      spelling (leading zeros, signs, spaces) gets through. */
  function ParseAddr(s: string): (r: Option<Addr>)
    ensures r.Some? ==> FormatAddr(r.value) == s
  {
    var parts := Split(s, '.');
    if |parts| != 4 then None
    else
      match ParseOctets(parts)
      case Some(os) =>
        var a := FromOctets(os[0], os[1], os[2], os[3]);
        OctetsOfFromOctets(os[0], os[1], os[2], os[3]);
        assert os == [os[0], os[1], os[2], os[3]];
        assert forall i :: 0 <= i < 4 ==> ParseOctet(parts[i]) == Some(os[i]);
        assert OctetTexts(os) == parts;
        JoinSplit(s, '.');
        Some(a)
      case None => None
  }

  /** Formatting then parsing gives the address back. */
  lemma ParseFormat(a: Addr)
    ensures ParseAddr(FormatAddr(a)) == Some(a)
  {
    var o := OctetsOf(a);
    var parts := OctetTexts(o);
    forall i | 0 <= i < 4
      ensures '.' !in parts[i]
    {
      assert AllDigits(parts[i]);
    }
    SplitJoin(parts, '.');
    var os := ParseOctets(parts);
    assert os.Some?;
    assert os.value == o;
  }

  /** The parser accepts only the canonical text: whatever parses is exactly
      what `FormatAddr` writes for its value. */
  lemma FormatParse(s: string)
    requires ParseAddr(s).Some?
    ensures FormatAddr(ParseAddr(s).value) == s
  {
  }

  /** A string is an address exactly when it is the text of one. */
  lemma AddrTextIff(s: string)
    ensures ParseAddr(s).Some? <==> exists a: Addr :: FormatAddr(a) == s
  {
    if ParseAddr(s).Some? {
      FormatParse(s);
    }
    if exists a: Addr :: FormatAddr(a) == s {
      var a: Addr :| FormatAddr(a) == s;
      ParseFormat(a);
    }
  }

  lemma FormatAddrNoSlash(a: Addr)
    ensures '/' !in FormatAddr(a)
  {
    var parts := OctetTexts(OctetsOf(a));
    forall i | 0 <= i < 4
      ensures '.' !in parts[i] && '/' !in parts[i]
    {
      assert AllDigits(parts[i]);
    }
    JoinNoChar(parts, '.', '/');
  }

  lemma {:induction false} JoinNoChar(parts: seq<string>, sep: char, c: char)
    requires |parts| >= 1 && sep != c
    requires forall i :: 0 <= i < |parts| ==> c !in parts[i]
    ensures c !in Join(parts, sep)
    decreases |parts|
  {
    if |parts| > 1 {
      JoinNoChar(parts[1..], sep, c);
    }
  }

  // ---------------------------------------------------------------------------
  // Networks

  function Pow2(n: nat): (r: nat)
    ensures r >= 1
  {
    if n == 0 then 1 else 2 * Pow2(n - 1)
  }

  /** Number of addresses in a network with prefix length `p`. */
  function BlockSize(p: PrefixLen): nat {
    Pow2(32 - p)
  }

  lemma Pow2Add(m: nat, n: nat)
    ensures Pow2(m + n) == Pow2(m) * Pow2(n)
  {
    if m > 0 {
      Pow2Add(m - 1, n);
    }
  }

  lemma Pow2ThirtyTwo()
    ensures Pow2(32) == AddressCount
  {
    assert Pow2(4) == 16;
    Pow2Add(4, 4);
    Pow2Add(8, 8);
    Pow2Add(16, 16);
  }

  lemma Pow2AtLeastFour(n: nat)
    requires n >= 2
    ensures Pow2(n) >= 4
  {
    assert Pow2(n) == 2 * Pow2(n - 1) == 4 * Pow2(n - 2);
  }

  lemma DivMod(a: nat, s: nat)
    requires s > 0
    ensures a == (a / s) * s + a % s && 0 <= a % s < s
  {
  }

  lemma MulMonotone(a: nat, b: nat, s: nat)
    requires a <= b
    ensures a * s <= b * s
  {
    assert b * s == a * s + (b - a) * s;
  }

  /** Integer division has one answer: the block `k` that `h` falls in. */
  lemma DivUnique(h: nat, s: nat, k: nat)
    requires s > 0 && k * s <= h < k * s + s
    ensures h / s == k
  {
    DivMod(h, s);
    var q := h / s;
    if q < k {
      MulMonotone(q + 1, k, s);
    } else if q > k {
      MulMonotone(k + 1, q, s);
    }
  }

  lemma MulMod(k: nat, s: nat)
    requires s > 0
    ensures (k * s) % s == 0 && (k * s) / s == k
  {
    DivUnique(k * s, s, k);
    DivMod(k * s, s);
  }

  lemma AlignedFits(base: nat, s: nat, m: nat)
    requires s > 0 && base % s == 0 && base < s * m
    ensures base + s <= s * m
  {
    DivMod(base, s);
    var k := base / s;
    assert base == k * s;
    if k >= m {
      MulMonotone(m, k, s);
      assert false;
    }
    MulMonotone(k + 1, m, s);
  }

  /** A block-aligned address leaves room for the whole block below 2^32. */
  lemma BlockFits(base: Addr, p: PrefixLen)
    requires base % BlockSize(p) == 0
    ensures base + BlockSize(p) <= AddressCount
  {
    Pow2Add(32 - p, p);
    Pow2ThirtyTwo();
    AlignedFits(base, BlockSize(p), Pow2(p));
  }

  /** A network as `IPv4Network(s, strict=False)` holds it: the masked network
      address and the prefix length. */
  datatype Network = Network(address: Addr, prefix: PrefixLen)

  /** The network address is aligned to the network's block. */
  predicate WellFormed(n: Network) {
    n.address % BlockSize(n.prefix) == 0
  }

  /** `a` with its host bits (the low `32 - p` bits) cleared. */
  function Mask(a: Addr, p: PrefixLen): (r: Addr)
    ensures r <= a < r + BlockSize(p)
    ensures r % BlockSize(p) == 0
    ensures r + BlockSize(p) <= AddressCount
  {
    var r := AlignDown(a, BlockSize(p));
    BlockFits(r, p);
    r
  }

  /** The largest multiple of `s` not above `a`. */
  function AlignDown(a: nat, s: nat): (r: nat)
    requires s > 0
    ensures r <= a < r + s
    ensures r % s == 0
  {
    var k := a / s;
    DivMod(a, s);
    MulMod(k, s);
    k * s
  }

  ghost predicate InNetwork(h: Addr, n: Network) {
    n.address <= h < n.address + BlockSize(n.prefix)
  }

  function Broadcast(n: Network): Addr
    requires WellFormed(n)
  {
    BlockFits(n.address, n.prefix);
    n.address + BlockSize(n.prefix) - 1
  }

  /** Masking an address gives a network's address exactly when the address
      lies inside that network. */
  lemma MaskIffInNetwork(h: Addr, n: Network)
    requires WellFormed(n)
    ensures Mask(h, n.prefix) == n.address <==> InNetwork(h, n)
  {
    var s := BlockSize(n.prefix);
    var k := n.address / s;
    DivMod(n.address, s);
    assert n.address == k * s;
    if InNetwork(h, n) {
      DivUnique(h, s, k);
    }
  }

  /** The prefix after '/': ASCII digits (leading zeros allowed, as `int`
      reads them) with value at most 32. */
  function ParsePrefix(t: string): (r: Option<PrefixLen>)
    ensures r.Some? ==> AllDigits(t) && DecimalValue(t) == r.value
  {
    if |t| == 0 || !AllDigits(t) then None
    else
      var v := DecimalValue(t);
      if v <= 32 then Some(v) else None
  }

  /** `IPv4Network(s, strict=False)`: an address, optionally followed by one
      '/' and a prefix length; a missing prefix means /32; host bits are
      masked off rather than rejected. */
  function ParseNetwork(s: string): (r: Option<Network>)
    ensures r.Some? ==> WellFormed(r.value)
  {
    var parts := Split(s, '/');
    if |parts| > 2 then None
    else
      match ParseAddr(parts[0])
      case None => None
      case Some(a) =>
        var prefix := if |parts| == 1 then Some(32) else ParsePrefix(parts[1]);
        match prefix
        case None => None
        case Some(p) => Some(Network(Mask(a, p), p))
  }

  /** The text `<address>/<digits>`. */
  lemma NetworkText(a: Addr, t: string)
    ensures Split(FormatAddr(a) + "/" + t, '/') == (if '/' in t then [FormatAddr(a)] + Split(t, '/') else [FormatAddr(a), t])
  {
    FormatAddrNoSlash(a);
    SplitCons(FormatAddr(a), '/', t);
    if '/' !in t {
      SplitNoSep(t, '/');
    }
  }

  /** Writing an address and a prefix length in prefix notation and parsing
      the result gives the masked network. */
  lemma ParseNetworkText(a: Addr, t: string)
    requires |t| > 0 && AllDigits(t)
    ensures ParseNetwork(FormatAddr(a) + "/" + t)
         == if DecimalValue(t) <= 32 then Some(Network(Mask(a, DecimalValue(t)), DecimalValue(t))) else None
  {
    assert '/' !in t by { assert !IsDigit('/'); }
    NetworkText(a, t);
    ParseFormat(a);
  }

  /** Without a '/', a network parses exactly when an address does, as a /32. */
  lemma ParseNetworkNoSlash(s: string)
    requires '/' !in s
    ensures ParseNetwork(s) == if ParseAddr(s).Some? then Some(Network(ParseAddr(s).value, 32)) else None
  {
    SplitNoSep(s, '/');
    match ParseAddr(s)
    case None =>
    case Some(a) =>
      assert Mask(a, 32) == a;
  }

  // ---------------------------------------------------------------------------
  // Host enumeration

  /** The `count` consecutive addresses from `lo` upwards. */
  function Range(lo: nat, count: nat): (r: seq<Addr>)
    requires lo + count <= AddressCount
    ensures |r| == count
    ensures forall i :: 0 <= i < count ==> r[i] == lo + i
    decreases count
  {
    if count == 0 then [] else [lo] + Range(lo + 1, count - 1)
  }

  /** How many hosts `IPv4Network.hosts()` yields for prefix length `p`. */
  function HostCount(p: PrefixLen): nat {
    if p == 32 then 1 else if p == 31 then 2 else BlockSize(p) - 2
  }

  /** `IPv4Network.hosts()`: a /32 gives its one address, a /31 both of its
      addresses (RFC 3021), and any shorter prefix every address strictly
      between the network and broadcast addresses, in ascending order. */
  function Hosts(n: Network): (r: seq<Addr>)
    requires WellFormed(n)
    ensures |r| == HostCount(n.prefix)
    ensures forall i, j :: 0 <= i < j < |r| ==> r[i] < r[j]
  {
    BlockFits(n.address, n.prefix);
    if n.prefix >= 31 then Range(n.address, BlockSize(n.prefix))
    else
      Pow2AtLeastFour(32 - n.prefix);
      Range(n.address + 1, BlockSize(n.prefix) - 2)
  }

  /** The hosts are exactly the network's addresses, less the network and
      broadcast addresses when the prefix is 30 or shorter. */
  lemma HostsExactly(n: Network, h: Addr)
    requires WellFormed(n)
    ensures h in Hosts(n) <==>
      InNetwork(h, n) && (n.prefix >= 31 || (h != n.address && h != Broadcast(n)))
  {
    var r := Hosts(n);
    BlockFits(n.address, n.prefix);
    if n.prefix >= 31 {
      if InNetwork(h, n) {
        assert r[h - n.address] == h;
      }
    } else {
      Pow2AtLeastFour(32 - n.prefix);
      if InNetwork(h, n) && h != n.address && h != Broadcast(n) {
        assert r[h - n.address - 1] == h;
      }
    }
  }

  // ---------------------------------------------------------------------------
  // The validators

  /** `validate_ip`: the input itself, unchanged, when it parses as an
      address or (host bits allowed) as a network; otherwise nothing. */
  function ValidateIp(s: string): (r: Option<string>)
    ensures r.Some? ==> r.value == s
  {
    if ParseAddr(s).Some? then Some(s)
    else if ParseNetwork(s).Some? then Some(s)
    else None
  }

  /** `parse_ip_range`: the dotted-quad text of each host of the network, or
      nothing where `ip_network` would raise. */
  function ParseIpRange(s: string): (r: Option<seq<string>>)
    ensures r.Some? <==> ParseNetwork(s).Some?
  {
    match ParseNetwork(s)
    case None => None
    case Some(n) => Some(AddrTexts(Hosts(n)))
  }

  /** `[str(ip) for ip in hosts]`. */
  function AddrTexts(hs: seq<Addr>): (r: seq<string>)
    ensures |r| == |hs|
    ensures forall i :: 0 <= i < |hs| ==> r[i] == FormatAddr(hs[i])
  {
    if |hs| == 0 then [] else [FormatAddr(hs[0])] + AddrTexts(hs[1..])
  }

  /** The text of an address. */
  ghost predicate IsAddrText(s: string) {
    exists a: Addr :: FormatAddr(a) == s
  }

  /** The text of an address, one '/', and a decimal prefix length of at
      most 32, with any leading zeros. */
  ghost predicate IsPrefixText(s: string) {
    exists a: Addr, t: string ::
      s == FormatAddr(a) + "/" + t && |t| > 0 && AllDigits(t) && DecimalValue(t) <= 32
  }

  /** `validate_ip` accepts exactly the dotted-quad texts and the prefix
      notations built on them, and returns what it was given. */
  lemma ValidateIpIff(s: string)
    ensures ValidateIp(s).Some? <==> IsAddrText(s) || IsPrefixText(s)
    ensures ValidateIp(s).Some? ==> ValidateIp(s).value == s
  {
    AddrTextIff(s);
    if IsPrefixText(s) {
      var a: Addr, t: string :|
        s == FormatAddr(a) + "/" + t && |t| > 0 && AllDigits(t) && DecimalValue(t) <= 32;
      ParseNetworkText(a, t);
    }
    if ValidateIp(s).Some? && !IsAddrText(s) {
      NetworkIsPrefixText(s);
    }
  }

  lemma NetworkIsPrefixText(s: string)
    requires ParseNetwork(s).Some? && ParseAddr(s).None?
    ensures IsPrefixText(s)
  {
    var parts := Split(s, '/');
    JoinSplit(s, '/');
    if |parts| == 1 {
      assert false;
    }
    assert parts == [parts[0], parts[1]];
    assert Join(parts, '/') == parts[0] + "/" + parts[1];
    var a := ParseAddr(parts[0]).value;
    FormatParse(parts[0]);
    assert s == FormatAddr(a) + "/" + parts[1];
  }

  /** Host bits are masked: two addresses in the same block give the same
      host list under the same prefix. */
  lemma HostBitsIgnored(a1: Addr, a2: Addr, t: string)
    requires |t| > 0 && AllDigits(t) && DecimalValue(t) <= 32
    requires Mask(a1, DecimalValue(t)) == Mask(a2, DecimalValue(t))
    ensures ParseIpRange(FormatAddr(a1) + "/" + t) == ParseIpRange(FormatAddr(a2) + "/" + t)
    ensures ParseIpRange(FormatAddr(a1) + "/" + t).Some?
  {
    ParseNetworkText(a1, t);
    ParseNetworkText(a2, t);
  }

  /** Every host text of a range is a canonical address inside the network,
      and the texts come in strictly ascending address order. */
  lemma RangeHostsInside(s: string, n: Network)
    requires ParseNetwork(s) == Some(n)
    ensures ParseIpRange(s) == Some(AddrTexts(Hosts(n)))
    ensures forall i :: 0 <= i < |Hosts(n)| ==>
      ParseAddr(ParseIpRange(s).value[i]) == Some(Hosts(n)[i])
      && Mask(Hosts(n)[i], n.prefix) == n.address
  {
    var hs := Hosts(n);
    var r := AddrTexts(hs);
    forall i | 0 <= i < |hs|
      ensures ParseAddr(r[i]) == Some(hs[i])
      ensures Mask(hs[i], n.prefix) == n.address
    {
      ParseFormat(hs[i]);
      HostsExactly(n, hs[i]);
      MaskIffInNetwork(hs[i], n);
    }
  }

  /** The text of an address is its four octets in decimal, joined by dots. */
  lemma FormatOctets(o0: Octet, o1: Octet, o2: Octet, o3: Octet)
    ensures FormatAddr(FromOctets(o0, o1, o2, o3))
         == NatToDecimal(o0) + "." + NatToDecimal(o1) + "." + NatToDecimal(o2) + "." + NatToDecimal(o3)
  {
    OctetsOfFromOctets(o0, o1, o2, o3);
    assert OctetTexts([o0, o1, o2, o3]) == [NatToDecimal(o0), NatToDecimal(o1), NatToDecimal(o2), NatToDecimal(o3)];
    Join4(NatToDecimal(o0), NatToDecimal(o1), NatToDecimal(o2), NatToDecimal(o3), '.');
  }

  /** A network in prefix notation expands to the texts of `Hosts` of the
      masked network. */
  lemma RangeOfPrefixText(a: Addr, t: string)
    requires |t| > 0 && AllDigits(t) && DecimalValue(t) <= 32
    ensures ParseIpRange(FormatAddr(a) + "/" + t)
         == Some(AddrTexts(Hosts(Network(Mask(a, DecimalValue(t)), DecimalValue(t)))))
  {
    ParseNetworkText(a, t);
  }

  lemma HostsThirty(n: Network)
    requires WellFormed(n) && n.prefix == 30
    ensures |Hosts(n)| == 2 && Hosts(n)[0] == n.address + 1 && Hosts(n)[1] == n.address + 2
  {
    assert BlockSize(30) == 4;
    var r := Hosts(n);
    assert |r| == 2;
    assert r[0] == n.address + 1;
  }

  lemma HostsThirtyOne(n: Network)
    requires WellFormed(n) && n.prefix == 31
    ensures |Hosts(n)| == 2 && Hosts(n)[0] == n.address && Hosts(n)[1] == n.address + 1
  {
    assert BlockSize(31) == 2;
    var r := Hosts(n);
    assert |r| == 2;
    assert r[0] == n.address;
  }

  lemma HostsThirtyTwo(n: Network)
    requires WellFormed(n) && n.prefix == 32
    ensures Hosts(n) == [n.address]
  {
    assert BlockSize(32) == 1;
    var r := Hosts(n);
    assert |r| == 1;
  }

  lemma RangeOfTwo(s: string, n: Network, u: Addr, v: Addr)
    requires ParseNetwork(s) == Some(n)
    requires |Hosts(n)| == 2 && Hosts(n)[0] == u && Hosts(n)[1] == v
    ensures ParseIpRange(s) == Some(AddrTexts([u, v]))
  {
    assert Hosts(n) == [u, v];
  }

  /** Any address of a /30 block, written with prefix 30, expands to the
      texts of the two middle addresses of the block. */
  lemma SlashThirty(a: Addr, t: string)
    requires |t| > 0 && AllDigits(t) && DecimalValue(t) == 30
    ensures ParseIpRange(FormatAddr(a) + "/" + t) == Some(AddrTexts([Mask(a, 30) + 1, Mask(a, 30) + 2]))
  {
    assert BlockSize(30) == 4;
    var n := Network(Mask(a, 30), 30);
    var s := FormatAddr(a) + "/" + t;
    assert ParseNetwork(s) == Some(n) by {
      ParseNetworkText(a, t);
    }
    assert |Hosts(n)| == 2 && Hosts(n)[0] == n.address + 1 && Hosts(n)[1] == n.address + 2 by {
      HostsThirty(n);
    }
    RangeOfTwo(s, n, n.address + 1, n.address + 2);
  }

  /** A /31 expands to the texts of both of its addresses. */
  lemma SlashThirtyOne(a: Addr, t: string)
    requires |t| > 0 && AllDigits(t) && DecimalValue(t) == 31
    ensures ParseIpRange(FormatAddr(a) + "/" + t) == Some(AddrTexts([Mask(a, 31), Mask(a, 31) + 1]))
  {
    var n := Network(Mask(a, 31), 31);
    var s := FormatAddr(a) + "/" + t;
    assert ParseNetwork(s) == Some(n) by {
      ParseNetworkText(a, t);
    }
    assert |Hosts(n)| == 2 && Hosts(n)[0] == n.address && Hosts(n)[1] == n.address + 1 by {
      HostsThirtyOne(n);
    }
    RangeOfTwo(s, n, n.address, n.address + 1);
  }

  /** A /32 expands to its single address. */
  lemma SlashThirtyTwo(a: Addr, t: string)
    requires |t| > 0 && AllDigits(t) && DecimalValue(t) == 32
    ensures ParseIpRange(FormatAddr(a) + "/" + t) == Some([FormatAddr(a)])
  {
    RangeOfPrefixText(a, t);
    assert BlockSize(32) == 1;
    DivUnique(a, 1, a);
    assert Mask(a, 32) == a;
    HostsThirtyTwo(Network(a, 32));
    assert AddrTexts([a]) == [FormatAddr(a)];
  }
}

=== FILE: list_store.dfy ===
/** The list store of `db/database.py`: two SQLite tables, `blacklist` and
    `whitelist`, each keyed by `ip`. A table is modelled as the sequence of
    its rows in insertion order (the order an unordered `SELECT` returns
    them in a rowid table that is never deleted from). */
module ListStore {
  import opened Wrappers
  import Text

  /** The `added_at` text; the store takes it from its clock at insertion. */
  type Timestamp = string

  /** The two tables; the SQL table name is `TableName`. */
  datatype ListKind = Blacklist | Whitelist

  /** One row: `ip TEXT PRIMARY KEY, source TEXT NOT NULL, added_at TIMESTAMP
      NOT NULL, reason TEXT, comment TEXT`. */
  datatype Row = Row(ip: string, source: string, addedAt: Timestamp, reason: Option<string>, comment: Option<string>)

  function TableName(k: ListKind): string {
    match k
    case Blacklist => "blacklist"
    case Whitelist => "whitelist"
  }

  function Other(k: ListKind): ListKind {
    match k
    case Blacklist => Whitelist
    case Whitelist => Blacklist
  }

  /** The `ip` column of some rows. */
  function Ips(rows: seq<Row>): set<string> {
    set r | r in rows :: r.ip
  }

  /** The primary-key constraint: no two rows share an `ip`. */
  predicate UniqueIps(rows: seq<Row>) {
    forall i, j :: 0 <= i < j < |rows| ==> rows[i].ip != rows[j].ip
  }

  datatype Tables = Tables(blacklist: seq<Row>, whitelist: seq<Row>)

  /** The database: both tables, each keyed by `ip`. */
  type Store = t: Tables | UniqueIps(t.blacklist) && UniqueIps(t.whitelist)
    witness Tables([], [])

  function Rows(st: Store, k: ListKind): (rows: seq<Row>)
    ensures UniqueIps(rows)
  {
    match k
    case Blacklist => st.blacklist
    case Whitelist => st.whitelist
  }

  function WithRows(st: Store, k: ListKind, rows: seq<Row>): (r: Store)
    requires UniqueIps(rows)
    ensures Rows(r, k) == rows && Rows(r, Other(k)) == Rows(st, Other(k))
  {
    match k
    case Blacklist => Tables(rows, st.whitelist)
    case Whitelist => Tables(st.blacklist, rows)
  }

  lemma IpsAppend(rows: seq<Row>, e: Row)
    ensures Ips(rows + [e]) == Ips(rows) + {e.ip}
  {
    assert e in rows + [e];
  }

  // ---------------------------------------------------------------------------
  // Single insert: `add_to_blacklist` / `add_to_whitelist`

  /** Whether the `INSERT` went in or hit the primary key (`IntegrityError`). */
  datatype InsertOutcome = Added | AlreadyExists

  /** `INSERT INTO <table>`: a fresh ip gets one new row stamped `now`; an ip
      already in the table leaves the store exactly as it was. */
  function Insert(st: Store, k: ListKind, ip: string, source: string, reason: Option<string>,
                  comment: Option<string>, now: Timestamp): (r: (Store, InsertOutcome))
    ensures r.1 == Added <==> ip !in Ips(Rows(st, k))
    ensures r.1 == Added ==>
      Rows(r.0, k) == Rows(st, k) + [Row(ip, source, now, reason, comment)]
    ensures r.1 == AlreadyExists ==> r.0 == st
    ensures Rows(r.0, Other(k)) == Rows(st, Other(k))
    ensures ip in Ips(Rows(r.0, k))
  {
    var rows := Rows(st, k);
    if ip in Ips(rows) then (st, AlreadyExists)
    else
      var row := Row(ip, source, now, reason, comment);
      IpsAppend(rows, row);
      (WithRows(st, k, rows + [row]), Added)
  }

  /** The message the insert functions return and log; it begins with
      "Added " exactly when the row went in. */
  function InsertMessage(k: ListKind, ip: string, source: string, outcome: InsertOutcome): (r: string)
    ensures outcome == Added <==> |r| >= 6 && r[..6] == "Added "
  {
    match outcome
    case Added => "Added " + ip + (" to " + TableName(k) + " from source ") + source
    case AlreadyExists =>
      var m := "IP " + ip + (" already exists in " + TableName(k));
      assert m[1] == 'P' != "Added "[1];
      m
  }

  lemma BlacklistTexts()
    ensures " to " + TableName(Blacklist) + " from source " == " to blacklist from source "
    ensures " already exists in " + TableName(Blacklist) == " already exists in blacklist"
  {
  }

  lemma WhitelistTexts()
    ensures " to " + TableName(Whitelist) + " from source " == " to whitelist from source "
    ensures " already exists in " + TableName(Whitelist) == " already exists in whitelist"
  {
  }

  /** `add_to_blacklist(ip, source, reason, comment)`. */
  function AddToBlacklist(st: Store, ip: string, source: string, reason: Option<string>,
                          comment: Option<string>, now: Timestamp): (r: (Store, string))
    ensures ip in Ips(r.0.blacklist) && r.0.whitelist == st.whitelist
    ensures ip !in Ips(st.blacklist) ==> r.0.blacklist == st.blacklist + [Row(ip, source, now, reason, comment)]
    ensures ip !in Ips(st.blacklist) ==> r.1 == "Added " + ip + " to blacklist from source " + source
    ensures ip in Ips(st.blacklist) ==> r == (st, "IP " + ip + " already exists in blacklist")
  {
    var (st', outcome) := Insert(st, Blacklist, ip, source, reason, comment, now);
    BlacklistTexts();
    (st', InsertMessage(Blacklist, ip, source, outcome))
  }

  /** `add_to_whitelist(ip, source, reason, comment)`. */
  function AddToWhitelist(st: Store, ip: string, source: string, reason: Option<string>,
                          comment: Option<string>, now: Timestamp): (r: (Store, string))
    ensures ip in Ips(r.0.whitelist) && r.0.blacklist == st.blacklist
    ensures ip !in Ips(st.whitelist) ==> r.0.whitelist == st.whitelist + [Row(ip, source, now, reason, comment)]
    ensures ip !in Ips(st.whitelist) ==> r.1 == "Added " + ip + " to whitelist from source " + source
    ensures ip in Ips(st.whitelist) ==> r == (st, "IP " + ip + " already exists in whitelist")
  {
    var (st', outcome) := Insert(st, Whitelist, ip, source, reason, comment, now);
    WhitelistTexts();
    (st', InsertMessage(Whitelist, ip, source, outcome))
  }

  /** Inserting the same ip twice: the second call reports "already exists"
      and keeps the first row, with its original source, reason, comment and
      timestamp. */
  lemma InsertTwice(st: Store, k: ListKind, ip: string, s1: string, r1: Option<string>, c1: Option<string>, t1: Timestamp,
                    s2: string, r2: Option<string>, c2: Option<string>, t2: Timestamp)
    ensures var (st1, _) := Insert(st, k, ip, s1, r1, c1, t1);
      Insert(st1, k, ip, s2, r2, c2, t2) == (st1, AlreadyExists)
  {
  }

  // ---------------------------------------------------------------------------
  // Reads: `get_list`, `get_blacklist`, `get_whitelist`

  /** The rows of `s` that `keep` accepts, in order. */
  function Filter(s: seq<Row>, keep: Row -> bool): (r: seq<Row>)
    ensures |r| <= |s|
    ensures forall x :: x in r <==> x in s && keep(x)
  {
    if |s| == 0 then []
    else (if keep(s[0]) then [s[0]] else []) + Filter(s[1..], keep)
  }

  /** Filtering keeps the order of the rows: the rows kept from `a + b` are
      those kept from `a`, then those kept from `b`. */
  lemma {:induction false} FilterAppend(a: seq<Row>, b: seq<Row>, keep: Row -> bool)
    ensures Filter(a + b, keep) == Filter(a, keep) + Filter(b, keep)
    decreases |a|
  {
    if |a| == 0 {
      assert a + b == b;
    } else {
      assert (a + b)[1..] == a[1..] + b;
      FilterAppend(a[1..], b, keep);
    }
  }

  /** Filtering never repeats a row's ip: the reads of a keyed table are
      keyed too. */
  lemma {:induction false} FilterUnique(s: seq<Row>, keep: Row -> bool)
    requires UniqueIps(s)
    ensures UniqueIps(Filter(s, keep))
    decreases |s|
  {
    if |s| > 0 {
      var tail := Filter(s[1..], keep);
      assert UniqueIps(s[1..]) by {
        assert forall i :: 0 <= i < |s| - 1 ==> s[1..][i] == s[i + 1];
      }
      FilterUnique(s[1..], keep);
      if keep(s[0]) {
        forall x | x in tail
          ensures x.ip != s[0].ip
        {
          var j :| 0 <= j < |s[1..]| && s[1..][j] == x;
          assert s[j + 1] == x;
        }
        var r := [s[0]] + tail;
        forall i, j | 0 <= i < j < |r|
          ensures r[i].ip != r[j].ip
        {
          assert r[j] == tail[j - 1] && r[j] in tail;
          if i > 0 {
            assert r[i] == tail[i - 1];
          }
        }
      }
    }
  }

  /** A source filter applies only when it is truthy: `None` and `""` mean
      every source. */
  predicate SourceMatches(source: Option<string>, row: Row) {
    source == None || source == Some("") || row.source == source.value
  }

  /** `get_list(source, list_type)`: the raw rows of one table, with no
      precedence between the tables. */
  function GetList(st: Store, k: ListKind, source: Option<string>): (r: seq<Row>)
    ensures forall row :: row in r <==> row in Rows(st, k) && SourceMatches(source, row)
    ensures UniqueIps(r)
  {
    var keep := (row: Row) => SourceMatches(source, row);
    FilterUnique(Rows(st, k), keep);
    Filter(Rows(st, k), keep)
  }

  /** `get_whitelist(source)`. */
  function GetWhitelist(st: Store, source: Option<string>): (r: seq<Row>)
    ensures forall row :: row in r <==> row in st.whitelist && SourceMatches(source, row)
    ensures UniqueIps(r)
  {
    GetList(st, Whitelist, source)
  }

  /** `get_blacklist(source)`: the effective blacklist, the blacklist rows
      whose ip is not whitelisted, then filtered by a truthy source. */
  function GetBlacklist(st: Store, source: Option<string>): (r: seq<Row>)
    ensures forall row :: row in r <==>
      row in st.blacklist && row.ip !in Ips(st.whitelist) && SourceMatches(source, row)
    ensures UniqueIps(r)
  {
    var white := Ips(st.whitelist);
    var keep := (row: Row) => row.ip !in white && SourceMatches(source, row);
    FilterUnique(st.blacklist, keep);
    Filter(st.blacklist, keep)
  }

  /** The effective block set: the ips of `get_blacklist()` are those
      blacklisted and not whitelisted. */
  lemma EffectiveIps(st: Store)
    ensures Ips(GetBlacklist(st, None)) == Ips(st.blacklist) - Ips(st.whitelist)
  {
    var r := GetBlacklist(st, None);
    forall ip | ip in Ips(st.blacklist) - Ips(st.whitelist)
      ensures ip in Ips(r)
    {
      var row :| row in st.blacklist && row.ip == ip;
      assert row in r;
    }
  }

  /** Whitelisting suppresses, it does not delete: after `add_to_whitelist`
      the blacklist rows are all still there, but none with that ip is read
      back as blocked. */
  lemma WhitelistSuppresses(st: Store, ip: string, source: string, reason: Option<string>,
                            comment: Option<string>, now: Timestamp, filter: Option<string>)
    ensures var (st', _) := AddToWhitelist(st, ip, source, reason, comment, now);
      st'.blacklist == st.blacklist
      && forall row :: row in GetBlacklist(st', filter) ==> row.ip != ip
  {
  }

  // ---------------------------------------------------------------------------
  // Bulk insert: `bulk_add`

  /** `INSERT OR IGNORE` of each entry in turn: an entry whose ip is already
      present (stored before, or earlier in the batch) is skipped. */
  function InsertOrIgnore(rows: seq<Row>, entries: seq<Row>): (r: seq<Row>)
    requires UniqueIps(rows)
    ensures UniqueIps(r)
    ensures |rows| <= |r| && r[..|rows|] == rows
    ensures Ips(r) == Ips(rows) + Ips(entries)
    decreases |entries|
  {
    if |entries| == 0 then rows
    else
      var e := entries[0];
      IpsCons(entries);
      if e.ip in Ips(rows) then InsertOrIgnore(rows, entries[1..])
      else
        AppendFresh(rows, e);
        var r := InsertOrIgnore(rows + [e], entries[1..]);
        assert r[..|rows|] == (rows + [e])[..|rows|];
        r
  }

  lemma IpsCons(entries: seq<Row>)
    requires |entries| > 0
    ensures Ips(entries) == {entries[0].ip} + Ips(entries[1..])
  {
    assert entries == [entries[0]] + entries[1..];
  }

  lemma AppendFresh(rows: seq<Row>, e: Row)
    requires UniqueIps(rows) && e.ip !in Ips(rows)
    ensures UniqueIps(rows + [e])
    ensures Ips(rows + [e]) == Ips(rows) + {e.ip}
  {
    IpsAppend(rows, e);
    forall i | 0 <= i < |rows|
      ensures rows[i].ip != e.ip
    {
      assert rows[i] in rows;
    }
  }

  /** The reference definition of insert-or-ignore: the entries whose ip is
      neither in `stored` nor taken by an earlier entry of the batch, in
      batch order. */
  function FirstNew(stored: set<string>, entries: seq<Row>): (r: seq<Row>)
    ensures forall x :: x in r ==> x in entries && x.ip !in stored
    decreases |entries|
  {
    if |entries| == 0 then []
    else
      var init := entries[..|entries| - 1];
      var e := entries[|entries| - 1];
      FirstNew(stored, init) + (if e.ip in stored || e.ip in Ips(init) then [] else [e])
  }

  lemma {:induction false} InsertOrIgnoreSnoc(rows: seq<Row>, a: seq<Row>, e: Row)
    requires UniqueIps(rows)
    ensures var t := InsertOrIgnore(rows, a);
      InsertOrIgnore(rows, a + [e]) == if e.ip in Ips(t) then t else t + [e]
    decreases |a|
  {
    if |a| == 0 {
      assert [e][1..] == [];
    } else {
      assert (a + [e])[1..] == a[1..] + [e];
      if a[0].ip in Ips(rows) {
        InsertOrIgnoreSnoc(rows, a[1..], e);
      } else {
        AppendFresh(rows, a[0]);
        InsertOrIgnoreSnoc(rows + [a[0]], a[1..], e);
      }
    }
  }

  lemma FirstNewSnoc(stored: set<string>, init: seq<Row>, e: Row)
    ensures FirstNew(stored, init + [e])
      == FirstNew(stored, init) + (if e.ip in stored || e.ip in Ips(init) then [] else [e])
  {
    assert (init + [e])[..|init|] == init;
  }

  /** Insert-or-ignore keeps the stored rows and appends exactly the first
      occurrence of each new ip, in batch order. */
  lemma {:induction false} InsertOrIgnoreIsFirstNew(rows: seq<Row>, entries: seq<Row>)
    requires UniqueIps(rows)
    ensures InsertOrIgnore(rows, entries) == rows + FirstNew(Ips(rows), entries)
    decreases |entries|
  {
    if |entries| > 0 {
      var init := entries[..|entries| - 1];
      var e := entries[|entries| - 1];
      assert entries == init + [e];
      InsertOrIgnoreIsFirstNew(rows, init);
      SnocStep(rows, init, e);
    }
  }

  lemma SnocStep(rows: seq<Row>, init: seq<Row>, e: Row)
    requires UniqueIps(rows)
    requires InsertOrIgnore(rows, init) == rows + FirstNew(Ips(rows), init)
    ensures InsertOrIgnore(rows, init + [e]) == rows + FirstNew(Ips(rows), init + [e])
  {
    var t := InsertOrIgnore(rows, init);
    var fn := FirstNew(Ips(rows), init);
    var tail: seq<Row> := if e.ip in Ips(rows) || e.ip in Ips(init) then [] else [e];
    calc {
      InsertOrIgnore(rows, init + [e]);
      { InsertOrIgnoreSnoc(rows, init, e); }
      t + tail;
      (rows + fn) + tail;
      { ConcatAssoc(rows, fn, tail); }
      rows + (fn + tail);
      { FirstNewSnoc(Ips(rows), init, e); }
      rows + FirstNew(Ips(rows), init + [e]);
    }
  }

  lemma ConcatAssoc<T>(a: seq<T>, b: seq<T>, c: seq<T>)
    ensures (a + b) + c == a + (b + c)
  {
  }

  /** The table `bulk_add` names: SQLite resolves table names without regard
      to ASCII case; any other name is "no such table". */
  function TableKind(name: string): (r: Option<ListKind>)
    ensures r.Some? ==> LowerAscii(name) == TableName(r.value)
    ensures r.None? ==> forall k :: LowerAscii(name) != TableName(k)
  {
    if LowerAscii(name) == "blacklist" then Some(Blacklist)
    else if LowerAscii(name) == "whitelist" then Some(Whitelist)
    else None
  }

  /** ASCII lower-casing: each capital letter becomes the small letter at
      the same place in the alphabet, every other character is kept, and no
      capital is left. */
  function LowerAscii(s: string): (r: string)
    ensures |r| == |s|
    ensures forall i :: 0 <= i < |s| ==>
      && !('A' <= r[i] <= 'Z')
      && ('A' <= s[i] <= 'Z' ==> 'a' <= r[i] <= 'z' && r[i] as int - 'a' as int == s[i] as int - 'A' as int)
      && (!('A' <= s[i] <= 'Z') ==> r[i] == s[i])
  {
    if |s| == 0 then []
    else
      var c := if 'A' <= s[0] <= 'Z' then (s[0] as int + 32) as char else s[0];
      var rest := LowerAscii(s[1..]);
      assert forall i :: 1 <= i < |s| ==> s[i] == s[1..][i - 1] && ([c] + rest)[i] == rest[i - 1];
      [c] + rest
  }

  /** `bulk_add(entries, list_type)`: insert-or-ignore into the named table,
      reporting the number of entries given, not the number inserted; an
      unknown table name fails before anything is written. */
  function BulkAdd(st: Store, listType: string, entries: seq<Row>): (r: Option<(Store, string)>)
    ensures r.Some? <==> TableKind(listType).Some?
    ensures r.Some? ==> var k := TableKind(listType).value;
      && Rows(r.value.0, k) == Rows(st, k) + FirstNew(Ips(Rows(st, k)), entries)
      && Rows(r.value.0, Other(k)) == Rows(st, Other(k))
      && r.value.1 == BulkMessage(|entries|, listType)
  {
    match TableKind(listType)
    case None => None
    case Some(k) =>
      var rows := Rows(st, k);
      InsertOrIgnoreIsFirstNew(rows, entries);
      Some((WithRows(st, k, InsertOrIgnore(rows, entries)), BulkMessage(|entries|, listType)))
  }

  function BulkMessage(count: nat, listType: string): string {
    "Added " + Text.NatToDecimal(count) + " IPs to " + listType
  }

  /** Running the same bulk insert twice changes nothing the second time. */
  lemma BulkAddIdempotent(st: Store, listType: string, entries: seq<Row>)
    requires TableKind(listType).Some?
    ensures var st1 := BulkAdd(st, listType, entries).value.0;
      BulkAdd(st1, listType, entries).value.0 == st1
  {
    var k := TableKind(listType).value;
    var rows := Rows(st, k);
    var once := InsertOrIgnore(rows, entries);
    InsertOrIgnoreIsFirstNew(rows, entries);
    InsertOrIgnoreIsFirstNew(once, entries);
    AllStoredNothingNew(Ips(once), entries);
  }

  lemma {:induction false} AllStoredNothingNew(stored: set<string>, entries: seq<Row>)
    requires Ips(entries) <= stored
    ensures FirstNew(stored, entries) == []
    decreases |entries|
  {
    if |entries| > 0 {
      var init := entries[..|entries| - 1];
      assert entries[|entries| - 1] in entries;
      assert Ips(init) <= Ips(entries) by {
        forall ip | ip in Ips(init) ensures ip in Ips(entries) {
          var r :| r in init && r.ip == ip;
          assert r in entries;
        }
      }
      AllStoredNothingNew(stored, init);
    }
  }

  /** A batch repeating one fresh ip inserts a single row, the first one,
      while the message counts both entries. */
  lemma BulkDuplicate(st: Store, listType: string, e1: Row, e2: Row)
    requires TableKind(listType).Some?
    requires e1.ip == e2.ip && e1.ip !in Ips(Rows(st, TableKind(listType).value))
    ensures var k := TableKind(listType).value;
      var r := BulkAdd(st, listType, [e1, e2]).value;
      Rows(r.0, k) == Rows(st, k) + [e1] && r.1 == BulkMessage(2, listType)
  {
    var stored := Ips(Rows(st, TableKind(listType).value));
    assert FirstNew(stored, [e1]) == [e1] by {
      FirstNewSnoc(stored, [], e1);
    }
    assert FirstNew(stored, [e1, e2]) == [e1] by {
      assert e1 in [e1];
      FirstNewSnoc(stored, [e1], e2);
    }
  }
}

=== FILE: reconciler.dfy ===
/** The host-side reconciler of `scripts/host.py`: each cycle fetches the
    effective blacklist from the API, reads the addresses in the ipfw table,
    and issues deletes for the addresses the API no longer lists, then adds
    for the new ones, never adding the API server's own address. ipfw and
    HTTP calls are parameters: a listing result, a reply, and a map from
    each table command to its outcome. */
module Reconciler {
  import opened Wrappers
  import opened Text

  // ---------------------------------------------------------------------------
  // The API server's address, from the API's URL

  /** A "://" starts at position `i` of `url`. */
  predicate SchemeAt(url: string, i: nat) {
    i + 3 <= |url| && url[i] == ':' && url[i + 1] == '/' && url[i + 2] == '/'
  }

  /** The text after the first "://" of `url`, if there is one. */
  function AfterScheme(url: string): (r: Option<string>)
    ensures r.None? <==> forall i: nat :: i < |url| ==> !SchemeAt(url, i)
    ensures r.Some? ==> |r.value| + 3 <= |url|
    ensures r.Some? ==>
      var k := |url| - |r.value| - 3;
      && SchemeAt(url, k) && url[k + 3..] == r.value
      && forall i: nat :: i < k ==> !SchemeAt(url, i)
    decreases |url|
  {
    if |url| < 3 then None
    else if SchemeAt(url, 0) then Some(url[3..])
    else
      assert forall i: nat :: 1 <= i < |url| ==> SchemeAt(url, i) == SchemeAt(url[1..], i - 1);
      assert forall j: nat :: j < |url| - 1 ==> SchemeAt(url[1..], j) == SchemeAt(url, j + 1);
      AfterScheme(url[1..])
  }

  /** `HOST_API_URL.split('://')[1].split(':')[0]`: the text after the
      first "://" up to the next ':' (a second "://" begins with ':', so
      cutting at the first "://" and then at ':' gives the same text). No
      "://" at all raises, which the cycle reports as a failed sync. */
  function ApiServer(url: string): (r: Option<string>)
    ensures r.None? <==> AfterScheme(url).None?
    ensures r.Some? ==> ':' !in r.value
  {
    match AfterScheme(url)
    case None => None
    case Some(rest) => Some(Split(rest, ':')[0])
  }

  /** For a URL built from a scheme, "://", a host and a port part, the
      server is the host. */
  lemma ApiServerOfUrl(scheme: string, host: string, port: string)
    requires ':' !in scheme && ':' !in host
    requires port == "" || port[0] == ':'
    ensures ApiServer(scheme + "://" + host + port) == Some(host)
  {
    var rest := host + port;
    assert scheme + "://" + host + port == scheme + ("://" + rest);
    FirstScheme(scheme, rest);
    HostBeforePort(host, port);
  }

  /** The configured default URL, "http://localhost:5000", names the local host. */
  lemma LocalhostServer()
    ensures ApiServer("http" + "://" + "localhost" + ":5000") == Some("localhost")
  {
    ApiServerOfUrl("http", "localhost", ":5000");
  }

  /** The first ':'-separated piece of a host followed by a port part is the host. */
  lemma HostBeforePort(host: string, port: string)
    requires ':' !in host
    requires port == "" || port[0] == ':'
    ensures Split(host + port, ':')[0] == host
  {
    if port == "" {
      assert host + port == host;
      SplitNoSep(host, ':');
    } else {
      assert host + port == host + [':'] + port[1..];
      SplitCons(host, ':', port[1..]);
    }
  }

  lemma FirstScheme(scheme: string, rest: string)
    requires ':' !in scheme
    ensures AfterScheme(scheme + ("://" + rest)) == Some(rest)
  {
    var url := scheme + ("://" + rest);
    var k := |scheme|;
    assert SchemeAt(url, k);
    forall i: nat | i < k
      ensures !SchemeAt(url, i)
    {
      assert url[i] == scheme[i];
    }
    assert url[k + 3..] == rest;
    var r := AfterScheme(url);
    assert r.Some?;
    var j := |url| - |r.value| - 3;
    assert !(j < k) && !(k < j);
  }

  // ---------------------------------------------------------------------------
  // Reading the table: `get_current_ipfw_ips`

  /** `str.isspace()` for one character. */
  predicate IsSpace(c: char) {
    || '\t' <= c <= '\r'
    || '\U{1c}' <= c <= ' '
    || c == '\U{85}' || c == '\U{a0}' || c == '\U{1680}'
    || '\U{2000}' <= c <= '\U{200a}'
    || c == '\U{2028}' || c == '\U{2029}' || c == '\U{202f}' || c == '\U{205f}' || c == '\U{3000}'
  }

  /** The characters `str.splitlines()` breaks at ("\r\n" is one break,
      but empty lines are dropped anyway, so treating it as two changes
      nothing below). */
  predicate IsLineBreak(c: char) {
    '\n' <= c <= '\r' || '\U{1c}' <= c <= '\U{1e}' || c == '\U{85}' || c == '\U{2028}' || c == '\U{2029}'
  }

  /** The pieces of `s` between line breaks. */
  function SplitLines(s: string): (lines: seq<string>)
    ensures |lines| >= 1
    ensures forall i :: 0 <= i < |lines| ==> forall c :: c in lines[i] ==> !IsLineBreak(c)
    decreases |s|
  {
    if |s| == 0 then [""]
    else
      var rest := SplitLines(s[1..]);
      if IsLineBreak(s[0]) then [""] + rest
      else [[s[0]] + rest[0]] + rest[1..]
  }

  /** `[line for line in lines if line]`. */
  function NonEmpty(lines: seq<string>): (r: seq<string>)
    ensures forall l :: l in r <==> l in lines && l != ""
  {
    if |lines| == 0 then []
    else (if lines[0] == "" then [] else [lines[0]]) + NonEmpty(lines[1..])
  }

  /** `line.split()[0]`: the first run of non-space characters, or nothing
      (an `IndexError`) when the line is all spaces. */
  function FirstWord(line: string): (r: Option<string>)
    ensures r.Some? ==> r.value != "" && forall c :: c in r.value ==> !IsSpace(c)
    ensures r.None? <==> forall c :: c in line ==> IsSpace(c)
    decreases |line|
  {
    if |line| == 0 then None
    else if IsSpace(line[0]) then FirstWord(line[1..])
    else Some([line[0]] + WordPrefix(line[1..]))
  }

  /** The longest prefix of `s` with no space character. */
  function WordPrefix(s: string): (r: string)
    ensures forall c :: c in r ==> !IsSpace(c)
    ensures |r| <= |s| && r == s[..|r|]
    ensures |r| < |s| ==> IsSpace(s[|r|])
  {
    if |s| == 0 || IsSpace(s[0]) then [] else [s[0]] + WordPrefix(s[1..])
  }

  /** The first words of some lines, or nothing if any line has none. */
  function Words(lines: seq<string>): (r: Option<set<string>>)
    ensures r.Some? <==> forall i :: 0 <= i < |lines| ==> FirstWord(lines[i]).Some?
    ensures r.Some? ==> forall w :: w in r.value <==>
      exists i :: 0 <= i < |lines| && FirstWord(lines[i]) == Some(w)
  {
    if |lines| == 0 then Some({})
    else
      match (FirstWord(lines[0]), Words(lines[1..]))
      case (Some(w), Some(ws)) =>
        assert forall i :: 1 <= i < |lines| ==> lines[i] == lines[1..][i - 1];
        WordsCons(lines, w, ws);
        Some({w} + ws)
      case (_, _) =>
        assert forall i :: 1 <= i < |lines| ==> lines[i] == lines[1..][i - 1];
        None
  }

  /** The words of some lines are the first line's word and the words of
      the rest. */
  lemma WordsCons(lines: seq<string>, w: string, ws: set<string>)
    requires |lines| > 0 && FirstWord(lines[0]) == Some(w)
    requires forall v :: v in ws <==> exists i :: 0 <= i < |lines[1..]| && FirstWord(lines[1..][i]) == Some(v)
    ensures forall v :: v in {w} + ws <==> exists i :: 0 <= i < |lines| && FirstWord(lines[i]) == Some(v)
  {
    forall v | v in {w} + ws
      ensures exists i :: 0 <= i < |lines| && FirstWord(lines[i]) == Some(v)
    {
      if v != w {
        var i :| 0 <= i < |lines[1..]| && FirstWord(lines[1..][i]) == Some(v);
        assert lines[1..][i] == lines[i + 1];
      }
    }
    forall v | exists i :: 0 <= i < |lines| && FirstWord(lines[i]) == Some(v)
      ensures v in {w} + ws
    {
      var i :| 0 <= i < |lines| && FirstWord(lines[i]) == Some(v);
      if i > 0 {
        assert lines[1..][i - 1] == lines[i];
      }
    }
  }

  /** The outcome of `ipfw table N list`: it raised, or it exited with a
      code and printed `stdout`. */
  datatype Listing = ListingRaised | Listed(exitCode: int, stdout: string)

  /** `get_current_ipfw_ips`: the first word of each non-empty output line;
      the empty set when the command fails, raises, or prints a line of
      spaces only. A failed read never yields an address. */
  function ReadLive(listing: Listing): (r: set<string>)
    ensures listing.ListingRaised? || listing.exitCode != 0 ==> r == {}
    ensures forall w :: w in r ==> w != "" && forall c :: c in w ==> !IsSpace(c)
  {
    match listing
    case ListingRaised => {}
    case Listed(code, out) =>
      if code != 0 then {}
      else
        match Words(NonEmpty(SplitLines(out)))
        case None => {}
        case Some(ws) => ws
  }

  /** A listing of the given words, one per line. */
  function RenderListing(words: seq<string>): string {
    if |words| == 0 then "" else words[0] + "\n" + RenderListing(words[1..])
  }

  /** A word is a non-empty run of characters that are neither spaces nor
      line breaks (every line break is also a space). */
  predicate IsWord(w: string) {
    w != "" && forall c :: c in w ==> !IsSpace(c)
  }

  /** A line ends at any of the characters `splitlines` breaks at. */
  lemma {:induction false} SplitLinesCons(w: string, brk: char, t: string)
    requires forall c :: c in w ==> !IsLineBreak(c)
    requires IsLineBreak(brk)
    ensures SplitLines(w + [brk] + t) == [w] + SplitLines(t)
    decreases |w|
  {
    if |w| == 0 {
      assert w + [brk] + t == [brk] + t;
      assert ([brk] + t)[1..] == t;
    } else {
      assert (w + [brk] + t)[1..] == w[1..] + [brk] + t;
      SplitLinesCons(w[1..], brk, t);
      assert [w[0]] + w[1..] == w;
    }
  }

  /** A "\r\n" line end reads like a "\n" one: the empty piece between
      its two characters is dropped with the other empty lines. */
  lemma CrLfLine(w: string, t: string)
    requires forall c :: c in w ==> !IsLineBreak(c)
    ensures NonEmpty(SplitLines(w + "\r\n" + t)) == NonEmpty(SplitLines(w + "\n" + t))
  {
    CrLfPieces(w, t);
    SplitLinesCons(w, '\n', t);
    DropEmptyPiece(w, SplitLines(t));
  }

  /** "\r\n" leaves an empty piece between its two characters. */
  lemma CrLfPieces(w: string, t: string)
    requires forall c :: c in w ==> !IsLineBreak(c)
    ensures SplitLines(w + "\r\n" + t) == [w] + ([""] + SplitLines(t))
  {
    assert w + "\r\n" + t == w + ['\r'] + ("\n" + t);
    SplitLinesCons(w, '\r', "\n" + t);
    assert "" + ['\n'] + t == "\n" + t;
    SplitLinesCons("", '\n', t);
  }

  /** An empty piece after a line is dropped by `NonEmpty`. */
  lemma DropEmptyPiece(w: string, rest: seq<string>)
    ensures NonEmpty([w] + ([""] + rest)) == NonEmpty([w] + rest)
  {
    NonEmptyCons(w, [""] + rest);
    NonEmptyCons("", rest);
    NonEmptyCons(w, rest);
    assert [] + NonEmpty(rest) == NonEmpty(rest);
  }

  lemma NonEmptyCons(x: string, rest: seq<string>)
    ensures NonEmpty([x] + rest) == (if x == "" then [] else [x]) + NonEmpty(rest)
  {
    assert ([x] + rest)[1..] == rest;
  }

  /** `split()[0]` of a line is its first word: leading spaces are
      skipped, and the word ends at the first space after it, whatever
      follows. */
  lemma {:induction false} FirstWordOf(pad: string, w: string, rest: string)
    requires forall c :: c in pad ==> IsSpace(c)
    requires IsWord(w)
    requires rest == "" || IsSpace(rest[0])
    ensures FirstWord(pad + w + rest) == Some(w)
    decreases |pad|
  {
    if |pad| == 0 {
      var line := w + rest;
      assert pad + w + rest == line;
      assert line[0] == w[0] && !IsSpace(w[0]);
      assert line[1..] == w[1..] + rest;
      WordPrefixStop(w[1..], rest);
      assert [w[0]] + w[1..] == w;
    } else {
      assert pad[0] in pad;
      assert (pad + w + rest)[1..] == pad[1..] + w + rest;
      FirstWordOf(pad[1..], w, rest);
    }
  }

  /** The space-free prefix stops at the first space. */
  lemma {:induction false} WordPrefixStop(s: string, rest: string)
    requires forall c :: c in s ==> !IsSpace(c)
    requires rest == "" || IsSpace(rest[0])
    ensures WordPrefix(s + rest) == s
    decreases |s|
  {
    if |s| == 0 {
      assert s + rest == rest;
    } else {
      assert s[0] in s;
      assert (s + rest)[1..] == s[1..] + rest;
      WordPrefixStop(s[1..], rest);
      assert [s[0]] + s[1..] == s;
    }
  }

  /** A listing line: non-empty, with no line break. */
  predicate IsLine(l: string) {
    l != "" && forall c :: c in l ==> !IsLineBreak(c)
  }

  /** The parsed lines of a rendered listing. */
  lemma {:induction false} ListingLines(lines: seq<string>)
    requires forall i :: 0 <= i < |lines| ==> IsLine(lines[i])
    ensures NonEmpty(SplitLines(RenderListing(lines))) == lines
    decreases |lines|
  {
    if |lines| == 0 {
      assert SplitLines("") == [""];
    } else {
      var w := lines[0];
      assert IsLine(w);
      SplitLinesCons(w, '\n', RenderListing(lines[1..]));
      ListingLines(lines[1..]);
      assert ([w] + SplitLines(RenderListing(lines[1..])))[1..] == SplitLines(RenderListing(lines[1..]));
      assert [w] + lines[1..] == lines;
    }
  }

  /** A line made of a word and further fields starts with that word. */
  lemma FieldLine(line: string, w: string, tail: string)
    requires line == w + tail
    requires IsWord(w)
    requires tail == "" || IsSpace(tail[0])
    requires forall c :: c in tail ==> !IsLineBreak(c)
    ensures FirstWord(line) == Some(w) && IsLine(line)
  {
    assert "" + w + tail == line;
    FirstWordOf("", w, tail);
    assert w[0] in w;
    forall c | c in line
      ensures !IsLineBreak(c)
    {
      assert c in w || c in tail;
    }
  }

  /** Reading a listing whose line i is word i followed by further fields
      (nothing, or a space and anything without a line break) gives back
      exactly the words. */
  lemma ReadRenderedListing(lines: seq<string>, words: seq<string>, tails: seq<string>)
    requires |lines| == |words| == |tails|
    requires forall i :: 0 <= i < |lines| ==> lines[i] == words[i] + tails[i]
    requires forall i :: 0 <= i < |words| ==> IsWord(words[i])
    requires forall i :: 0 <= i < |tails| ==> tails[i] == "" || IsSpace(tails[i][0])
    requires forall i :: 0 <= i < |tails| ==> forall c :: c in tails[i] ==> !IsLineBreak(c)
    ensures ReadLive(Listed(0, RenderListing(lines))) == set i | 0 <= i < |words| :: words[i]
  {
    FieldLines(lines, words, tails);
    assert ReadLive(Listed(0, RenderListing(lines))) == Words(lines).value by {
      ListingLines(lines);
    }
    WordsOfFields(lines, words);
  }

  /** The first words of lines that start with the given words are those
      words. */
  lemma WordsOfFields(lines: seq<string>, words: seq<string>)
    requires |lines| == |words|
    requires forall i :: 0 <= i < |lines| ==> FirstWord(lines[i]) == Some(words[i])
    ensures Words(lines) == Some(set i | 0 <= i < |words| :: words[i])
  {
    var ws := Words(lines);
    var target := set i | 0 <= i < |words| :: words[i];
    assert ws.value == target by {
      forall w | w in ws.value
        ensures w in target
      {
        var i :| 0 <= i < |lines| && FirstWord(lines[i]) == Some(w);
        assert words[i] == w;
      }
      forall w | w in target
        ensures w in ws.value
      {
        var i :| 0 <= i < |words| && words[i] == w;
        assert FirstWord(lines[i]) == Some(w);
      }
    }
  }

  lemma FieldLines(lines: seq<string>, words: seq<string>, tails: seq<string>)
    requires |lines| == |words| == |tails|
    requires forall i :: 0 <= i < |lines| ==> lines[i] == words[i] + tails[i]
    requires forall i :: 0 <= i < |words| ==> IsWord(words[i])
    requires forall i :: 0 <= i < |tails| ==> tails[i] == "" || IsSpace(tails[i][0])
    requires forall i :: 0 <= i < |tails| ==> forall c :: c in tails[i] ==> !IsLineBreak(c)
    ensures forall i :: 0 <= i < |lines| ==> FirstWord(lines[i]) == Some(words[i]) && IsLine(lines[i])
  {
    forall i | 0 <= i < |lines|
      ensures FirstWord(lines[i]) == Some(words[i]) && IsLine(lines[i])
    {
      FieldLine(lines[i], words[i], tails[i]);
    }
  }

  // ---------------------------------------------------------------------------
  // The diff and the table commands

  /** `ips_to_add = api_ips - current_ips`, `ips_to_remove = current_ips -
      api_ips`: disjoint, addresses in both sets are never touched, and
      applying the diff to the live set gives the API's set. */
  function Diff(api: set<string>, live: set<string>): (r: (set<string>, set<string>))
    ensures r.0 !! r.1
    ensures r.0 <= api && r.1 <= live
    ensures (r.0 + r.1) !! (api * live)
    ensures (live - r.1) + r.0 == api
    ensures r.0 == {} && r.1 == {} <==> api == live
  {
    (api - live, live - api)
  }

  /** How a command ended: exit status 0, a non-zero exit status, or an
      exception out of `subprocess.run`. */
  datatype Outcome = Ok | Failed | Raised

  /** The commands a cycle issues, in the order it issues them: the table
      listing, the base-rule setup, table deletes and adds, and the health
      probe of the API server. */
  datatype Command = ListTable | EnsureBaseRules | Delete(ip: string) | Add(ip: string) | HealthCheck

  predicate TableCommand(c: Command) {
    c.Delete? || c.Add?
  }

  /** The addresses `update_ipfw_table` refuses to add: the API server's,
      when that text is non-empty (truthy). */
  function Guarded(server: string): set<string> {
    if server == "" then {} else {server}
  }

  /** The table after running the commands of `trace` in order: a delete
      or an add that exited 0 takes effect, nothing else changes it. So an
      address only appears through an add that exited 0, and only
      disappears through a delete that did. */
  function Apply(table: set<string>, trace: seq<Command>, outcome: Command -> Outcome): (r: set<string>)
    ensures forall ip :: ip in r && ip !in table ==> Add(ip) in trace && outcome(Add(ip)) == Ok
    ensures forall ip :: ip in table && ip !in r ==> Delete(ip) in trace && outcome(Delete(ip)) == Ok
    decreases |trace|
  {
    if |trace| == 0 then table
    else
      var c := trace[0];
      var next :=
        if outcome(c) != Ok then table
        else if c.Delete? then table - {c.ip}
        else if c.Add? then table + {c.ip}
        else table;
      assert forall d :: d in trace[1..] ==> d in trace;
      Apply(next, trace[1..], outcome)
  }

  lemma {:induction false} ApplySnoc(table: set<string>, trace: seq<Command>, c: Command, outcome: Command -> Outcome)
    ensures var before := Apply(table, trace, outcome);
      Apply(table, trace + [c], outcome) ==
        if outcome(c) != Ok then before
        else if c.Delete? then before - {c.ip}
        else if c.Add? then before + {c.ip}
        else before
    decreases |trace|
  {
    if |trace| == 0 {
      assert [c][1..] == [];
    } else {
      var t := trace[0];
      var next :=
        if outcome(t) != Ok then table
        else if t.Delete? then table - {t.ip}
        else if t.Add? then table + {t.ip}
        else table;
      assert (trace + [c])[1..] == trace[1..] + [c];
      ApplySnoc(next, trace[1..], c, outcome);
    }
  }

  /** The addresses whose delete in `trace` exited 0. */
  function Deleted(trace: seq<Command>, outcome: Command -> Outcome): (r: set<string>)
    ensures forall ip :: ip in r <==> Delete(ip) in trace && outcome(Delete(ip)) == Ok
  {
    if |trace| == 0 then {}
    else
      var rest := Deleted(trace[1..], outcome);
      assert forall c :: c in trace <==> c == trace[0] || c in trace[1..];
      if trace[0].Delete? && outcome(trace[0]) == Ok then {trace[0].ip} + rest else rest
  }

  /** The addresses whose add in `trace` exited 0. */
  function Added(trace: seq<Command>, outcome: Command -> Outcome): (r: set<string>)
    ensures forall ip :: ip in r <==> Add(ip) in trace && outcome(Add(ip)) == Ok
  {
    if |trace| == 0 then {}
    else
      var rest := Added(trace[1..], outcome);
      assert forall c :: c in trace <==> c == trace[0] || c in trace[1..];
      if trace[0].Add? && outcome(trace[0]) == Ok then {trace[0].ip} + rest else rest
  }

  /** The addresses whose delete or add in `trace` exited non-zero. */
  function FailedIps(trace: seq<Command>, outcome: Command -> Outcome): (r: set<string>)
    ensures forall ip :: ip in r <==>
      (Delete(ip) in trace && outcome(Delete(ip)) == Failed) || (Add(ip) in trace && outcome(Add(ip)) == Failed)
  {
    if |trace| == 0 then {}
    else
      var rest := FailedIps(trace[1..], outcome);
      assert forall c :: c in trace <==> c == trace[0] || c in trace[1..];
      if TableCommand(trace[0]) && outcome(trace[0]) == Failed then {trace[0].ip} + rest else rest
  }

  /** No table command of `trace` raised. */
  predicate NoRaise(trace: seq<Command>, outcome: Command -> Outcome) {
    forall c :: c in trace && TableCommand(c) ==> outcome(c) != Raised
  }

  /** Every table command of `trace` exited 0. */
  predicate AllSucceeded(trace: seq<Command>, outcome: Command -> Outcome) {
    forall c :: c in trace && TableCommand(c) ==> outcome(c) == Ok
  }

  /** An exception ends the update: a table command that raised is the last
      command issued. */
  predicate RaiseEnds(trace: seq<Command>, outcome: Command -> Outcome) {
    forall i :: 0 <= i < |trace| && TableCommand(trace[i]) && outcome(trace[i]) == Raised ==> i == |trace| - 1
  }

  /** One more command after a trace that raised nowhere: only that
      command can have raised, and the commands issued are those before
      and it. */
  lemma RaiseEndsSnoc(trace: seq<Command>, c: Command, outcome: Command -> Outcome)
    requires NoRaise(trace, outcome)
    ensures RaiseEnds(trace + [c], outcome)
    ensures forall d :: d in trace + [c] <==> d in trace || d == c
  {
    var t := trace + [c];
    forall i | 0 <= i < |t| - 1 && TableCommand(t[i])
      ensures outcome(t[i]) != Raised
    {
      assert t[i] == trace[i] && trace[i] in trace;
    }
  }

  /** Every delete comes before every add. */
  predicate DeletesFirst(trace: seq<Command>) {
    forall i, j :: 0 <= i < j < |trace| && trace[i].Add? ==> !trace[j].Delete?
  }

  /** No command is issued twice. */
  predicate Distinct(trace: seq<Command>) {
    forall i, j :: 0 <= i < j < |trace| ==> trace[i] != trace[j]
  }

  /** When every delete precedes every add, running the trace is removing
      the deleted addresses and then inserting the added ones. */
  lemma {:induction false} ApplyDeletesFirst(table: set<string>, trace: seq<Command>, outcome: Command -> Outcome)
    requires DeletesFirst(trace)
    ensures Apply(table, trace, outcome) == (table - Deleted(trace, outcome)) + Added(trace, outcome)
    decreases |trace|
  {
    if |trace| > 0 {
      var init := trace[..|trace| - 1];
      var c := trace[|trace| - 1];
      assert trace == init + [c];
      assert DeletesFirst(init);
      ApplyDeletesFirst(table, init, outcome);
      ApplySnoc(table, init, c, outcome);
      DeletedSnoc(init, c, outcome);
      AddedSnoc(init, c, outcome);
      if c.Delete? {
        NoAddBeforeLastDelete(trace, outcome);
      }
    }
  }

  /** In a trace whose deletes come first and which ends with a delete,
      nothing before that delete is an add. */
  lemma NoAddBeforeLastDelete(trace: seq<Command>, outcome: Command -> Outcome)
    requires DeletesFirst(trace) && |trace| > 0 && trace[|trace| - 1].Delete?
    ensures Added(trace[..|trace| - 1], outcome) == {}
  {
    var init := trace[..|trace| - 1];
    forall a | a in init
      ensures !a.Add?
    {
      var i :| 0 <= i < |init| && init[i] == a;
      assert trace[i] == a;
    }
  }

  lemma InSnoc(init: seq<Command>, c: Command)
    ensures forall a :: a in init + [c] <==> a in init || a == c
  {
  }

  lemma DeletedSnoc(init: seq<Command>, c: Command, outcome: Command -> Outcome)
    ensures Deleted(init + [c], outcome)
      == Deleted(init, outcome) + (if c.Delete? && outcome(c) == Ok then {c.ip} else {})
  {
    InSnoc(init, c);
  }

  lemma AddedSnoc(init: seq<Command>, c: Command, outcome: Command -> Outcome)
    ensures Added(init + [c], outcome)
      == Added(init, outcome) + (if c.Add? && outcome(c) == Ok then {c.ip} else {})
  {
    InSnoc(init, c);
  }

  // ---------------------------------------------------------------------------
  // `update_ipfw_table`

  lemma {:induction false} ApplyAppend(table: set<string>, a: seq<Command>, b: seq<Command>, outcome: Command -> Outcome)
    ensures Apply(table, a + b, outcome) == Apply(Apply(table, a, outcome), b, outcome)
    decreases |a|
  {
    if |a| == 0 {
      assert a + b == b;
    } else {
      var c := a[0];
      var next :=
        if outcome(c) != Ok then table
        else if c.Delete? then table - {c.ip}
        else if c.Add? then table + {c.ip}
        else table;
      assert (a + b)[1..] == a[1..] + b;
      ApplyAppend(next, a[1..], b, outcome);
    }
  }

  /** The removal loop: a delete for each address of `toRemove`, in any
      order; a non-zero exit is only logged, an exception ends the loop. */
  method DeletePhase(table: set<string>, toRemove: set<string>, outcome: Command -> Outcome)
    returns (after: set<string>, dels: seq<Command>, raised: bool)
    ensures forall i :: 0 <= i < |dels| ==> dels[i].Delete? && dels[i].ip in toRemove
    ensures Distinct(dels)
    ensures raised <==> !NoRaise(dels, outcome)
    ensures RaiseEnds(dels, outcome)
    ensures !raised ==> forall ip :: ip in toRemove ==> Delete(ip) in dels
    ensures after == Apply(table, dels, outcome)
  {
    var pending := toRemove;
    dels := [];
    raised := false;
    while pending != {} && !raised
      invariant pending <= toRemove
      invariant forall i :: 0 <= i < |dels| ==> dels[i].Delete? && dels[i].ip in toRemove - pending
      invariant Distinct(dels)
      invariant !raised ==> forall ip :: ip in toRemove - pending ==> Delete(ip) in dels
      invariant raised <==> !NoRaise(dels, outcome)
      invariant RaiseEnds(dels, outcome)
      decreases |pending|
    {
      var ip :| ip in pending;
      var c := Delete(ip);
      RaiseEndsSnoc(dels, c, outcome);
      dels := dels + [c];
      if outcome(c) == Raised {
        raised := true;
      }
      pending := pending - {ip};
    }
    after := Apply(table, dels, outcome);
  }

  /** The addition loop: an add for each address of `toAdd` except the
      guarded one, which is skipped with a warning. */
  method AddPhase(table: set<string>, toAdd: set<string>, server: string, outcome: Command -> Outcome)
    returns (after: set<string>, adds: seq<Command>, raised: bool)
    ensures forall i :: 0 <= i < |adds| ==> adds[i].Add? && adds[i].ip in toAdd - Guarded(server)
    ensures Distinct(adds)
    ensures raised <==> !NoRaise(adds, outcome)
    ensures RaiseEnds(adds, outcome)
    ensures !raised ==> forall ip :: ip in toAdd - Guarded(server) ==> Add(ip) in adds
    ensures after == Apply(table, adds, outcome)
  {
    var pending := toAdd;
    adds := [];
    raised := false;
    while pending != {} && !raised
      invariant pending <= toAdd
      invariant forall i :: 0 <= i < |adds| ==> adds[i].Add? && adds[i].ip in toAdd - pending - Guarded(server)
      invariant Distinct(adds)
      invariant !raised ==> forall ip :: ip in toAdd - pending - Guarded(server) ==> Add(ip) in adds
      invariant raised <==> !NoRaise(adds, outcome)
      invariant RaiseEnds(adds, outcome)
      decreases |pending|
    {
      var ip :| ip in pending;
      pending := pending - {ip};
      if ip !in Guarded(server) {
        var c := Add(ip);
        RaiseEndsSnoc(adds, c, outcome);
        adds := adds + [c];
        if outcome(c) == Raised {
          raised := true;
        }
      }
    }
    after := Apply(table, adds, outcome);
  }

  /** The shape of an update's trace: the base-rule setup, the deletes,
      the adds, and possibly the probe. */
  predicate UpdateShape(trace: seq<Command>, dels: seq<Command>, adds: seq<Command>, probe: bool) {
    trace == [EnsureBaseRules] + dels + adds + (if probe then [HealthCheck] else [])
  }

  lemma ShapeFacts(trace: seq<Command>, dels: seq<Command>, adds: seq<Command>, probe: bool,
                   toRemove: set<string>, toAdd: set<string>)
    requires UpdateShape(trace, dels, adds, probe)
    requires forall i :: 0 <= i < |dels| ==> dels[i].Delete? && dels[i].ip in toRemove
    requires forall i :: 0 <= i < |adds| ==> adds[i].Add? && adds[i].ip in toAdd
    requires Distinct(dels) && Distinct(adds)
    ensures DeletesFirst(trace) && Distinct(trace)
    ensures forall c :: c in trace <==> c == EnsureBaseRules || c in dels || c in adds || (probe && c == HealthCheck)
  {
    var n := 1 + |dels|;
    var m := n + |adds|;
    assert forall i :: 1 <= i < n ==> trace[i] == dels[i - 1];
    assert forall i :: n <= i < m ==> trace[i] == adds[i - n];
    assert probe ==> |trace| == m + 1 && trace[m] == HealthCheck;
    assert !probe ==> |trace| == m;
  }

  lemma NoRaiseJoin(trace: seq<Command>, dels: seq<Command>, adds: seq<Command>, probe: bool, outcome: Command -> Outcome)
    requires UpdateShape(trace, dels, adds, probe)
    ensures NoRaise(trace, outcome) <==> NoRaise(dels, outcome) && NoRaise(adds, outcome)
  {
    assert forall c :: c in trace <==> c == EnsureBaseRules || c in dels || c in adds || (probe && c == HealthCheck);
  }

  /** `update_ipfw_table(ips_to_add, ips_to_remove, verify_access=server)`.
      The base rules are ensured first; if that raises, nothing else runs.
      Then every address to remove is deleted and every address to add is
      added, except the guarded server address; a command that exits
      non-zero is logged and the loop goes on, one that raises ends the
      update. A truthy server is probed last. */
  method UpdateTable(table: set<string>, toAdd: set<string>, toRemove: set<string>, server: string,
                     baseRulesOk: bool, outcome: Command -> Outcome)
    returns (final: set<string>, trace: seq<Command>)
    ensures |trace| >= 1 && trace[0] == EnsureBaseRules
    ensures !baseRulesOk ==> trace == [EnsureBaseRules] && final == table
    ensures DeletesFirst(trace) && Distinct(trace) && RaiseEnds(trace, outcome)
    ensures forall c :: c in trace && c.Delete? ==> c.ip in toRemove
    ensures forall c :: c in trace && c.Add? ==> c.ip in toAdd - Guarded(server)
    ensures final == Apply(table, trace, outcome)
    ensures final == (table - Deleted(trace, outcome)) + Added(trace, outcome)
    ensures baseRulesOk && NoRaise(trace, outcome) ==>
      && (forall ip :: ip in toRemove ==> Delete(ip) in trace)
      && (forall ip :: ip in toAdd - Guarded(server) ==> Add(ip) in trace)
    ensures HealthCheck in trace <==> server != "" && baseRulesOk && NoRaise(trace, outcome)
  {
    trace := [EnsureBaseRules];
    final := table;
    if !baseRulesOk {
      return;
    }
    var afterDeletes, dels, raisedDelete := DeletePhase(table, toRemove, outcome);
    var adds: seq<Command> := [];
    var raisedAdd := false;
    final := afterDeletes;
    if !raisedDelete {
      final, adds, raisedAdd := AddPhase(afterDeletes, toAdd, server, outcome);
    }
    var probe := !raisedDelete && !raisedAdd && server != "";
    trace := [EnsureBaseRules] + dels + adds + (if probe then [HealthCheck] else []);
    UpdateFacts(toAdd, toRemove, server, outcome, trace, dels, adds, raisedDelete, raisedAdd, probe);
    UpdateRaiseEnds(trace, dels, adds, probe, outcome);
    UpdateEffect(table, trace, dels, adds, probe, outcome, final);
  }

  /** What the two phases' traces add up to. */
  lemma UpdateFacts(toAdd: set<string>, toRemove: set<string>, server: string,
                    outcome: Command -> Outcome, trace: seq<Command>, dels: seq<Command>, adds: seq<Command>,
                    raisedDelete: bool, raisedAdd: bool, probe: bool)
    requires UpdateShape(trace, dels, adds, probe)
    requires probe == (!raisedDelete && !raisedAdd && server != "")
    requires forall i :: 0 <= i < |dels| ==> dels[i].Delete? && dels[i].ip in toRemove
    requires Distinct(dels)
    requires raisedDelete <==> !NoRaise(dels, outcome)
    requires !raisedDelete ==> forall ip :: ip in toRemove ==> Delete(ip) in dels
    requires raisedDelete ==> adds == [] && !raisedAdd
    requires forall i :: 0 <= i < |adds| ==> adds[i].Add? && adds[i].ip in toAdd - Guarded(server)
    requires Distinct(adds)
    requires raisedAdd <==> !NoRaise(adds, outcome)
    requires !raisedDelete && !raisedAdd ==> forall ip :: ip in toAdd - Guarded(server) ==> Add(ip) in adds
    ensures |trace| >= 1 && trace[0] == EnsureBaseRules
    ensures DeletesFirst(trace) && Distinct(trace)
    ensures forall c :: c in trace && c.Delete? ==> c.ip in toRemove
    ensures forall c :: c in trace && c.Add? ==> c.ip in toAdd - Guarded(server)
    ensures NoRaise(trace, outcome) ==>
      && (forall ip :: ip in toRemove ==> Delete(ip) in trace)
      && (forall ip :: ip in toAdd - Guarded(server) ==> Add(ip) in trace)
    ensures HealthCheck in trace <==> server != "" && NoRaise(trace, outcome)
  {
    var members := forall c :: c in trace <==>
      c == EnsureBaseRules || c in dels || c in adds || (probe && c == HealthCheck);
    assert DeletesFirst(trace) && Distinct(trace) && members by {
      ShapeFacts(trace, dels, adds, probe, toRemove, toAdd - Guarded(server));
    }
    assert NoRaise(trace, outcome) <==> NoRaise(dels, outcome) && NoRaise(adds, outcome) by {
      NoRaiseJoin(trace, dels, adds, probe, outcome);
    }
    assert forall c :: c in dels ==> c.Delete? && c.ip in toRemove;
    assert forall c :: c in adds ==> c.Add? && c.ip in toAdd - Guarded(server);
  }

  /** A raise in either loop is the last command of the update: a raising
      delete skips the adds and the probe, a raising add skips the probe. */
  lemma UpdateRaiseEnds(trace: seq<Command>, dels: seq<Command>, adds: seq<Command>, probe: bool,
                        outcome: Command -> Outcome)
    requires UpdateShape(trace, dels, adds, probe)
    requires RaiseEnds(dels, outcome) && RaiseEnds(adds, outcome)
    requires !NoRaise(dels, outcome) ==> adds == [] && !probe
    requires !NoRaise(adds, outcome) ==> !probe
    ensures RaiseEnds(trace, outcome)
  {
    var n := 1 + |dels|;
    forall i | 0 <= i < |trace| && TableCommand(trace[i]) && outcome(trace[i]) == Raised
      ensures i == |trace| - 1
    {
      if i < n {
        assert trace[i] == dels[i - 1] && dels[i - 1] in dels;
      } else {
        assert trace[i] == adds[i - n] && adds[i - n] in adds;
      }
    }
  }

  /** What running an update's trace does to the table. */
  lemma UpdateEffect(table: set<string>, trace: seq<Command>, dels: seq<Command>, adds: seq<Command>, probe: bool,
                     outcome: Command -> Outcome, final: set<string>)
    requires UpdateShape(trace, dels, adds, probe) && DeletesFirst(trace)
    requires final == Apply(Apply(table, dels, outcome), adds, outcome)
    ensures final == Apply(table, trace, outcome)
    ensures final == (table - Deleted(trace, outcome)) + Added(trace, outcome)
  {
    ApplyShape(table, trace, dels, adds, probe, outcome);
    ApplyDeletesFirst(table, trace, outcome);
  }

  lemma ApplyShape(table: set<string>, trace: seq<Command>, dels: seq<Command>, adds: seq<Command>, probe: bool,
                   outcome: Command -> Outcome)
    requires UpdateShape(trace, dels, adds, probe)
    ensures Apply(table, trace, outcome) == Apply(Apply(table, dels, outcome), adds, outcome)
  {
    var head := [EnsureBaseRules];
    var tail: seq<Command> := if probe then [HealthCheck] else [];
    ApplyInert(table, head, outcome);
    ApplyAppend(table, head, dels, outcome);
    ApplyAppend(table, head + dels, adds, outcome);
    ApplyAppend(table, head + dels + adds, tail, outcome);
    ApplyInert(Apply(table, head + dels + adds, outcome), tail, outcome);
  }

  /** A command that touches no table entry leaves the table as it is. */
  lemma ApplyInert(table: set<string>, trace: seq<Command>, outcome: Command -> Outcome)
    requires |trace| <= 1 && forall c :: c in trace ==> !TableCommand(c)
    ensures Apply(table, trace, outcome) == table
  {
    if |trace| == 1 {
      assert trace[0] in trace;
      assert Apply(table, trace[1..], outcome) == table;
    }
  }

  // ---------------------------------------------------------------------------
  // `sync_with_api`

  /** The reply to `GET /export/iptables`: the request raised, or a status
      and, when the body decodes to an object with an `ips` list, that
      list. */
  datatype Reply = FetchRaised | Reply(status: int, ips: Option<seq<string>>)

  /** The API's addresses, when the fetch gave status 200 and a decodable
      `ips` list. */
  function ApiIps(reply: Reply): (r: Option<set<string>>)
    ensures r.Some? <==> reply.Reply? && reply.status == 200 && reply.ips.Some?
    ensures r.Some? ==> forall ip :: ip in r.value <==> ip in reply.ips.value
  {
    if reply.Reply? && reply.status == 200 && reply.ips.Some?
    then Some(set ip | ip in reply.ips.value)
    else None
  }

  /** The cycle reached the table: the server address was extracted and
      the API's list fetched. */
  predicate Fetched(url: string, reply: Reply) {
    ApiServer(url).Some? && ApiIps(reply).Some?
  }

  /** `sync_with_api`: a failure before the table is read (no "://" in the
      URL, a fetch that raises, a status other than 200, an undecodable
      body) ends the cycle with no command at all; otherwise the table is
      listed, and the update runs only when there is a difference. */
  method SyncCycle(url: string, reply: Reply, listing: Listing, table: set<string>,
                   baseRulesOk: bool, outcome: Command -> Outcome)
    returns (final: set<string>, trace: seq<Command>)
    ensures !Fetched(url, reply) ==> trace == [] && final == table
    ensures Fetched(url, reply) ==> |trace| >= 1 && trace[0] == ListTable
    ensures Fetched(url, reply) && |trace| >= 2 ==> trace[1] == EnsureBaseRules
    ensures !baseRulesOk ==> final == table && forall c :: c in trace ==> !TableCommand(c)
    ensures RaiseEnds(trace, outcome)
    ensures Fetched(url, reply) && ApiIps(reply).value == ReadLive(listing) ==>
      trace == [ListTable] && final == table
    ensures final == Apply(table, trace, outcome)
    ensures DeletesFirst(trace)
    ensures forall c :: c in trace && c.Delete? ==>
      Fetched(url, reply) && c.ip in ReadLive(listing) && c.ip !in ApiIps(reply).value
    ensures forall c :: c in trace && c.Add? ==>
      && Fetched(url, reply) && c.ip in ApiIps(reply).value && c.ip !in ReadLive(listing)
      && c.ip !in Guarded(ApiServer(url).value)
    ensures Fetched(url, reply) && ReadLive(listing) == table && baseRulesOk && AllSucceeded(trace, outcome) ==>
      final == ApiIps(reply).value - (Guarded(ApiServer(url).value) - table)
    ensures Fetched(url, reply) && ReadLive(listing) == table && baseRulesOk && NoRaise(trace, outcome) ==>
      var api := ApiIps(reply).value;
      (final - api) + (api - final) <= Guarded(ApiServer(url).value) + FailedIps(trace, outcome)
  {
    if !Fetched(url, reply) {
      return table, [];
    }
    var server := ApiServer(url).value;
    var api := ApiIps(reply).value;
    var live := ReadLive(listing);
    var (toAdd, toRemove) := Diff(api, live);
    if toAdd == {} && toRemove == {} {
      return table, [ListTable];
    }
    var updated;
    final, updated := UpdateTable(table, toAdd, toRemove, server, baseRulesOk, outcome);
    trace := [ListTable] + updated;
    CycleFacts(table, api, live, server, baseRulesOk, outcome, final, updated);
    ListedOrder(table, baseRulesOk, outcome, final, updated);
  }

  /** Listing the table before the update keeps the base-rule setup ahead
      of every table command, and a raise the last command issued. */
  lemma ListedOrder(table: set<string>, baseRulesOk: bool, outcome: Command -> Outcome,
                    final: set<string>, updated: seq<Command>)
    requires |updated| >= 1 && updated[0] == EnsureBaseRules
    requires !baseRulesOk ==> updated == [EnsureBaseRules] && final == table
    requires RaiseEnds(updated, outcome)
    ensures var trace := [ListTable] + updated;
      && trace[1] == EnsureBaseRules
      && (!baseRulesOk ==> forall c :: c in trace ==> !TableCommand(c))
      && RaiseEnds(trace, outcome)
  {
    var trace := [ListTable] + updated;
    assert forall i :: 1 <= i < |trace| ==> trace[i] == updated[i - 1];
    if !baseRulesOk {
      assert trace == [ListTable, EnsureBaseRules];
    }
  }

  /** What a cycle that reached the update adds up to, given what the
      update promises for the difference `api - live`, `live - api`. */
  lemma CycleFacts(table: set<string>, api: set<string>, live: set<string>, server: string, baseRulesOk: bool,
                   outcome: Command -> Outcome, final: set<string>, updated: seq<Command>)
    requires DeletesFirst(updated)
    requires forall c :: c in updated && c.Delete? ==> c.ip in live - api
    requires forall c :: c in updated && c.Add? ==> c.ip in (api - live) - Guarded(server)
    requires final == Apply(table, updated, outcome)
    requires final == (table - Deleted(updated, outcome)) + Added(updated, outcome)
    requires baseRulesOk && NoRaise(updated, outcome) ==>
      && (forall ip :: ip in live - api ==> Delete(ip) in updated)
      && (forall ip :: ip in (api - live) - Guarded(server) ==> Add(ip) in updated)
    ensures var trace := [ListTable] + updated;
      && final == Apply(table, trace, outcome)
      && DeletesFirst(trace)
      && (forall c :: c in trace && c.Delete? ==> c.ip in live && c.ip !in api)
      && (forall c :: c in trace && c.Add? ==> c.ip in api && c.ip !in live && c.ip !in Guarded(server))
      && (live == table && baseRulesOk && AllSucceeded(trace, outcome) ==> final == api - (Guarded(server) - table))
      && (live == table && baseRulesOk && NoRaise(trace, outcome) ==>
            (final - api) + (api - final) <= Guarded(server) + FailedIps(trace, outcome))
  {
    var trace := [ListTable] + updated;
    assert forall c :: c in trace && c.Delete? ==> c.ip in live && c.ip !in api by {
      ListedMembers(updated);
    }
    assert forall c :: c in trace && c.Add? ==> c.ip in api && c.ip !in live && c.ip !in Guarded(server) by {
      ListedMembers(updated);
    }
    ListedFirst(table, updated, outcome);
    if live == table && baseRulesOk && NoRaise(updated, outcome) {
      Converges(table, api, server, final, updated, outcome);
    }
    assert AllSucceeded(trace, outcome) ==> NoRaise(trace, outcome);
  }

  lemma ListedMembers(updated: seq<Command>)
    ensures forall c :: c in [ListTable] + updated <==> c == ListTable || c in updated
  {
  }

  /** Listing the table first changes nothing the update's trace says. */
  lemma ListedFirst(table: set<string>, updated: seq<Command>, outcome: Command -> Outcome)
    requires DeletesFirst(updated)
    ensures var trace := [ListTable] + updated;
      && (forall c :: c in trace <==> c == ListTable || c in updated)
      && DeletesFirst(trace)
      && Apply(table, trace, outcome) == Apply(table, updated, outcome)
      && (NoRaise(trace, outcome) <==> NoRaise(updated, outcome))
      && (AllSucceeded(trace, outcome) <==> AllSucceeded(updated, outcome))
      && Deleted(trace, outcome) == Deleted(updated, outcome)
      && Added(trace, outcome) == Added(updated, outcome)
      && FailedIps(trace, outcome) == FailedIps(updated, outcome)
  {
    var trace := [ListTable] + updated;
    assert forall c :: c in trace <==> c == ListTable || c in updated;
    assert forall i :: 1 <= i < |trace| ==> trace[i] == updated[i - 1];
    assert trace[1..] == updated;
  }

  /** With a faithful listing and no command raising: every address the
      table and the API still disagree on is the guarded server or had a
      command that failed; and if every command succeeded the table is the
      API's set, less the server address unless it was already blocked. */
  lemma Converges(table: set<string>, api: set<string>, server: string, final: set<string>,
                  trace: seq<Command>, outcome: Command -> Outcome)
    requires forall c :: c in trace && c.Delete? ==> c.ip in table - api
    requires forall c :: c in trace && c.Add? ==> c.ip in (api - table) - Guarded(server)
    requires forall ip :: ip in table - api ==> Delete(ip) in trace
    requires forall ip :: ip in (api - table) - Guarded(server) ==> Add(ip) in trace
    requires NoRaise(trace, outcome)
    requires final == (table - Deleted(trace, outcome)) + Added(trace, outcome)
    ensures (final - api) + (api - final) <= Guarded(server) + FailedIps(trace, outcome)
    ensures AllSucceeded(trace, outcome) ==> final == api - (Guarded(server) - table)
  {
    forall ip | ip in (final - api) + (api - final)
      ensures ip in Guarded(server) + FailedIps(trace, outcome)
    {
      if ip in final {
        assert Delete(ip) in trace;
        assert TableCommand(Delete(ip));
      } else if ip !in Guarded(server) {
        assert Add(ip) in trace;
        assert TableCommand(Add(ip));
      }
    }
    if AllSucceeded(trace, outcome) {
      forall ip | ip in table - api
        ensures ip in Deleted(trace, outcome)
      {
        assert Delete(ip) in trace && TableCommand(Delete(ip));
      }
      forall ip | ip in (api - table) - Guarded(server)
        ensures ip in Added(trace, outcome)
      {
        assert Add(ip) in trace && TableCommand(Add(ip));
      }
    }
  }
}

=== FILE: text.dfy ===
/** String helpers shared by the parsers: Python's `str.split(sep)` for a
    one-character separator, its inverse `sep.join(parts)`, and decimal
    numerals as `int(s)` reads them and `str(n)` writes them. */
module Text {

  /** `s.split(sep)`: the pieces between separators, never an empty list. */
  function Split(s: string, sep: char): (parts: seq<string>)
    ensures |parts| >= 1
    ensures forall i :: 0 <= i < |parts| ==> sep !in parts[i]
    decreases |s|
  {
    if |s| == 0 then [""]
    else
      var rest := Split(s[1..], sep);
      if s[0] == sep then [""] + rest
      else [[s[0]] + rest[0]] + rest[1..]
  }

  /** `sep.join(parts)` for a non-empty list of pieces. */
  function Join(parts: seq<string>, sep: char): string
    requires |parts| >= 1
    decreases |parts|
  {
    if |parts| == 1 then parts[0] else parts[0] + [sep] + Join(parts[1..], sep)
  }

  lemma Join4(a: string, b: string, c: string, d: string, sep: char)
    ensures Join([a, b, c, d], sep) == a + [sep] + b + [sep] + c + [sep] + d
  {
    assert [a, b, c, d][1..] == [b, c, d];
    assert [b, c, d][1..] == [c, d];
    assert [c, d][1..] == [d];
    assert Join([c, d], sep) == c + [sep] + d;
    assert Join([b, c, d], sep) == b + [sep] + (c + [sep] + d);
    assert Join([a, b, c, d], sep) == a + [sep] + (b + [sep] + (c + [sep] + d));
  }

  lemma {:induction false} SplitNoSep(w: string, sep: char)
    requires sep !in w
    ensures Split(w, sep) == [w]
    decreases |w|
  {
    if |w| > 0 {
      SplitNoSep(w[1..], sep);
      assert [w[0]] + w[1..] == w;
    }
  }

  lemma {:induction false} SplitCons(w: string, sep: char, t: string)
    requires sep !in w
    ensures Split(w + [sep] + t, sep) == [w] + Split(t, sep)
    decreases |w|
  {
    if |w| == 0 {
      assert w + [sep] + t == [sep] + t;
      assert ([sep] + t)[1..] == t;
    } else {
      SplitCons(w[1..], sep, t);
      assert (w + [sep] + t)[1..] == w[1..] + [sep] + t;
      assert [w[0]] + w[1..] == w;
    }
  }

  /** Splitting a joined list gives the pieces back, when no piece holds the separator. */
  lemma {:induction false} SplitJoin(parts: seq<string>, sep: char)
    requires |parts| >= 1
    requires forall i :: 0 <= i < |parts| ==> sep !in parts[i]
    ensures Split(Join(parts, sep), sep) == parts
    decreases |parts|
  {
    if |parts| == 1 {
      SplitNoSep(parts[0], sep);
    } else {
      SplitJoin(parts[1..], sep);
      SplitCons(parts[0], sep, Join(parts[1..], sep));
      assert [parts[0]] + parts[1..] == parts;
    }
  }

  /** Joining the pieces of a split gives the string back. */
  lemma {:induction false} JoinSplit(s: string, sep: char)
    ensures Join(Split(s, sep), sep) == s
    decreases |s|
  {
    if |s| > 0 {
      var rest := Split(s[1..], sep);
      JoinSplit(s[1..], sep);
      if s[0] == sep {
        assert ([""] + rest)[1..] == rest;
        assert s == [sep] + s[1..];
      } else if |rest| == 1 {
        assert s == [s[0]] + rest[0];
      } else {
        var parts := [[s[0]] + rest[0]] + rest[1..];
        assert parts[1..] == rest[1..];
        assert Join(rest, sep) == rest[0] + [sep] + Join(rest[1..], sep);
        assert s == [s[0]] + s[1..];
      }
    }
  }

  predicate IsDigit(c: char) {
    '0' <= c <= '9'
  }

  predicate AllDigits(s: string) {
    forall i :: 0 <= i < |s| ==> IsDigit(s[i])
  }

  /** A numeral as `str(n)` writes it: digits, with no leading zero unless it is "0". */
  predicate Canonical(s: string) {
    |s| >= 1 && AllDigits(s) && (s[0] != '0' || |s| == 1)
  }

  function DigitValue(c: char): (d: nat)
    requires IsDigit(c)
    ensures d < 10
  {
    c as int - '0' as int
  }

  function DigitChar(d: nat): (c: char)
    requires d < 10
    ensures IsDigit(c) && DigitValue(c) == d
  {
    ('0' as int + d) as char
  }

  /** `int(s)` for a string of decimal digits (leading zeros allowed). */
  function DecimalValue(s: string): nat
    requires AllDigits(s)
    decreases |s|
  {
    if |s| == 0 then 0 else 10 * DecimalValue(s[..|s| - 1]) + DigitValue(s[|s| - 1])
  }

  /** `str(n)`: the canonical numeral, which `int` reads back as `n`. */
  function NatToDecimal(n: nat): (s: string)
    ensures Canonical(s)
    ensures DecimalValue(s) == n
    ensures n < 10 ==> |s| == 1
    ensures n < 100 ==> |s| <= 2
    ensures n < 1000 ==> |s| <= 3
    decreases n
  {
    if n < 10 then [DigitChar(n)]
    else
      var q, d := n / 10, n % 10;
      DivTen(n);
      var init := NatToDecimal(q);
      var s := init + [DigitChar(d)];
      assert s[..|s| - 1] == init;
      assert s[0] == init[0];
      s
  }

  lemma DivTen(n: nat)
    ensures n == 10 * (n / 10) + n % 10 && n % 10 < 10
    ensures n >= 10 ==> n / 10 >= 1
    ensures n < 100 ==> n / 10 < 10
    ensures n < 1000 ==> n / 10 < 100
  {
  }

  lemma {:induction false} LeadingNonZeroPositive(s: string)
    requires AllDigits(s) && |s| >= 1 && s[0] != '0'
    ensures DecimalValue(s) > 0
    decreases |s|
  {
    if |s| > 1 {
      LeadingNonZeroPositive(s[..|s| - 1]);
    }
  }

  /** Every canonical numeral is the one `str` writes for its value. */
  lemma {:induction false} CanonicalRoundTrip(s: string)
    requires Canonical(s)
    ensures NatToDecimal(DecimalValue(s)) == s
    decreases |s|
  {
    if |s| > 1 {
      var init := s[..|s| - 1];
      LeadingNonZeroPositive(init);
      CanonicalRoundTrip(init);
      var n := DecimalValue(s);
      assert n / 10 == DecimalValue(init);
      assert n % 10 == DigitValue(s[|s| - 1]);
      assert s == init + [s[|s| - 1]];
    }
  }
}

=== FILE: wrappers.dfy ===
/** Optional values, standing for Python's `None`-or-value results. */
module Wrappers {

  datatype Option<+T> = None | Some(value: T) {

    /** The wrapped value, or `default` when there is none (Python's `d.get(key, default)`). */
    function GetOr(default: T): T {
      match this
      case Some(v) => v
      case None => default
    }
  }
}
